=== FILE: README.md ===
# Lorebound: token lifecycle and authenticated sync, in Dafny

Lorebound is a Foundry VTT module. It signs the user in to an OAuth 2.0
provider with PKCE, keeps the resulting token, and pushes journal pages
to a notes API whenever a page is created, updated or deleted. This
project models the part of `scripts/module.js` with real decisions in it,
and proves what that code promises:

- `LoreboundConfig`: the stored configuration with its defaults and merge.
- `LoreboundTokenStore`: expiry with a one-minute margin, normalisation of
  token responses, and the connected/disconnected status.
- The PKCE helpers:
  - the base-36 random strings used for the verifier and the state;
  - the S256 challenge, with base64url defined from RFC 4648 and the
    `btoa`-and-rewrite implementation proved equal to it.
- `LoreboundOAuth`:
  - the authorization query;
  - the `authorization_code` and `refresh_token` form bodies, and the loop
    that drops null fields;
  - how a token endpoint reply is read;
  - the popup message handler: origin and source filter, single-use stash,
    state check, code exchange.
- `LoreboundSync`:
  - the allow-list (including the comma-separated form);
  - the plan of each hook;
  - `ensureToken`;
  - the request `makeRequest` builds, with its Authorization header;
  - how each handler ends.

The files, in dependency order:

- `common.dfy`: `Option`, `Result`, bytes, and the JavaScript coercions
  the code relies on (truthiness, `??`, `||`, template rendering).
- `text.dfy`: `trim`, `split` and `join`.
- `settings.dfy`: the configuration.
- `tokens.dfy`: the token store's pure logic.
- `base64.dfy`: base64 and base64url.
- `pkce.dfy`: random strings and the challenge.
- `http.dfy`: requests and replies as values.
- `oauth.dfy`: request building and callback handling.
- `sync.dfy`: the sync decisions.
- `lorebound.dfy`: the state. `Session` is a class whose fields are:
  - the config setting;
  - the token setting;
  - the session-storage stash;
  - the installed message handlers;
  - the pages' `externalId` flags.

  Each method of `Session` is proved against a function of the old state
  (`EnsureTokenSpec`, `HookSpec`, `Callback`, …), and the source's
  promises are proved about those functions.

How the environment appears in the model:

- The clock (`now`, in milliseconds) and the random bytes are inputs.
- SHA-256 is a parameter that returns 32 bytes.
- The reply each `fetch` would get is an input.
- Every request the code would send is returned in a `sent` sequence, so
  "no request" is `sent == []`.

Behaviours of the code that the model keeps, though a reader might not
expect them:

- The client id and the three endpoints are constants.
- A configured scope is never used: the authorization request always asks
  for `openid profile`.
- `isExpired` treats an `expires_at` of 0 like a missing one.
- There is no timeout on the popup: a handler stays installed until a
  trusted message arrives.
- `createJournalEntry` fails with a TypeError when `makeRequest` yields
  nothing.

The code also takes no lock around `ensureToken`. The model does not keep
this: its calls run one after the other (see "## Left out").

## Model

| member | source | states |
|---|---|---|
| Settings.Get | scripts/module.js:121-133 | client id and endpoints are the fixed constants, no scope is ever returned, and a missing secret or redirect URL gets its default |
| Settings.DefaultSettings | scripts/module.js:28-32 | the registered default: an empty secret, the module's callback page, scope `openid profile`; the `Session` constructor stores it |
| Settings.MergeThenGet | scripts/module.js:135-138 | after `set(patch)`, each field the patch omits reads back unchanged, each field it sets reads back as set, each field it nulls reads back as its default; an empty patch changes nothing |
| Settings.Merge | scripts/module.js:135-138 | the spread of the patch over what `get` returns; what `get` then reads back is stated by `MergeThenGet` |
| Settings.GetIsComplete | scripts/module.js:121-133 | the configuration `get` returns always passes `_assertConfig` |
| Settings.AllowedJournals | scripts/module.js:321-327 | no filter exactly for a nullish or empty setting; an array is used as it is; a string gives one name per comma-separated piece, in order, the i-th name being the i-th piece trimmed, so no name has a comma or surrounding white space |
| Settings.TrimAll | scripts/module.js:324 | each name is the trimmed piece, is its own trim, and has no comma if the piece had none |
| Settings.ListingRoundTrip | scripts/module.js:321-327 | writing comma-free names joined by commas filters by those names trimmed, and by exactly those names when they are already trimmed |
| Settings.ListingAdmits | scripts/module.js:321-327 | a non-empty listing admits a journal exactly when its name equals one of the trimmed comma-separated pieces |
| Settings.BlanksAroundNames | scripts/module.js:321-327 | names written with white space before and after them, as in `Lore, Other`, filter exactly as the bare names listed as an array would |
| Settings.Admits | scripts/module.js:345 | a page goes on unless an allow-list is set and lacks its journal; stated for each hook by `Sync.Plan` and `UnlistedJournalIgnored` |
| Text.Trim | scripts/module.js:324 | the result starts and ends with a non-blank and is no longer than the input |
| Text.TrimSlice | scripts/module.js:324 | the trimmed string is one contiguous slice of the input, and everything cut off on either side is white space |
| Text.TrimPadded | scripts/module.js:324 | trimming a string padded on both sides with white space gives back the string, when it neither starts nor ends with white space |
| Text.Split | scripts/module.js:324 | one more piece than there are commas, and no piece contains the separator |
| Text.JoinSplit | scripts/module.js:324 | joining the pieces of a split with the separator gives the input back |
| Text.SplitJoin | scripts/module.js:324 | splitting the join of separator-free pieces gives the pieces back |
| Tokens.IsExpired | scripts/module.js:155-158 | not expired exactly when there is a token whose `expires_at` is non-zero and more than 60 s ahead of now |
| Tokens.ExpiryIsPermanent | scripts/module.js:155-158 | once expired, a token stays expired as the clock advances |
| Tokens.Normalize | scripts/module.js:174-182 | null stays null; every other field is kept; a present `expires_at` or `received_at` (even 0) is kept, a missing one is filled |
| Tokens.NormalizeIdempotent | scripts/module.js:174-182 | normalising a normalised token changes nothing, at any later time |
| Tokens.FreshTokenExpiry | scripts/module.js:176-179 | a response without `expires_at` expires `expires_in` seconds from now, or in one hour without a lifetime, and is already expired exactly when its lifetime is at most the margin |
| Tokens.Describe | scripts/module.js:160-172 | connected exactly when there is a non-empty access token, showing an expiry exactly when `expires_at` is truthy |
| Tokens.StoredTokenShowsExpiry | scripts/module.js:146-149 | a stored token with an access token shows its expiry unless that expiry is literally 0 |
| Base64.UrlEncode | scripts/module.js:302-305 | base64url output has length ceil(4n/3) and uses only the Table 2 alphabet of RFC 4648 |
| Base64.UrlRoundTrip | scripts/module.js:302-305 | decoding the base64url encoding gives the bytes back |
| Base64.ReplaceAll | scripts/module.js:304 | same length, and exactly the occurrences of the character are replaced |
| Base64.TrimPaddingAppend | scripts/module.js:304 | cutting `=+$` from a string followed by a run of `=` leaves the string |
| Base64.StdEncode | scripts/module.js:304 | what `btoa` gives: four characters per started group of three bytes, so a multiple of four |
| Base64.ToUrlAlphabet | scripts/module.js:304 | same length, no `+` or `/` left, every other character kept |
| Base64.TrimPadding | scripts/module.js:304 | a prefix of the input that does not end with `=`, everything cut off being `=` |
| Base64.Base64UrlEncode | scripts/module.js:302-305 | `btoa`, the two rewrites and the cut padding give exactly the unpadded base64url encoding: ceil(4n/3) characters of `[A-Za-z0-9_-]`, never `=` |
| Base64.AsWrittenIsUrlEncode | scripts/module.js:302-305 | the three rewrites of standard padded base64 equal unpadded base64url |
| Pkce.RandomString | scripts/module.js:307-311 | one character per random byte, in `[0-9a-z]`, standing for the byte modulo 36 |
| Pkce.GeneratedSecretsAreValid | scripts/module.js:191-193 | the 96-character verifier is a valid RFC 7636 verifier and the 24-character state uses unreserved characters |
| Pkce.Utf8 | scripts/module.js:296-297 | an ASCII string encodes to one byte per character |
| Pkce.Challenge | scripts/module.js:295-300 | the challenge is base64url of SHA-256 of the UTF-8 verifier: 43 characters of the base64url alphabet, no `=` |
| Pkce.ChallengeDeterminesDigest | scripts/module.js:295-300 | the digest can be decoded back from the challenge |
| Pkce.VerifierIsNotChallenge | scripts/module.js:191-192 | the 96-character verifier never equals its 43-character challenge |
| OAuth.AuthorizeQueryFromSettings | scripts/module.js:195-203 | the query is response_type=code, the fixed client id, the stored redirect URL (the module's callback page when it is missing or empty), scope `openid profile` whatever is stored, the state, the challenge and `S256`, in that order |
| OAuth.RedirectUri | scripts/module.js:194 | never empty: the configured redirect URL unless it is empty, otherwise the module's callback page |
| OAuth.AuthorizeQuery | scripts/module.js:195-203 | the seven query parameters in the source's order; their values are stated by `AuthorizeQueryFromSettings` |
| OAuth.PresentMembership | scripts/module.js:277-280 | a pair is in the form exactly when the body has that key with that non-null value |
| OAuth.PresentAppend | scripts/module.js:277-280 | filtering distributes over concatenation, so the form keeps the body's order |
| OAuth.ExchangeBody | scripts/module.js:262-271 | the `authorization_code` body; the form it gives is stated by `ExchangeForm` |
| OAuth.RefreshBody | scripts/module.js:243-248 | the `refresh_token` body; the form it gives is stated by `RefreshForm` |
| OAuth.TokenForm | scripts/module.js:275-280 | for a body with distinct keys, the loop yields exactly the non-null entries in order, never more entries than the body |
| OAuth.GrantBodiesHaveDistinctKeys | scripts/module.js:243-248 | the `authorization_code` and `refresh_token` bodies have pairwise distinct keys, as any object does, so the form loop applies to them |
| OAuth.ExchangeForm | scripts/module.js:262-273 | the exchange form is grant_type, code (when present), redirect_uri, client_id, code_verifier, and client_secret exactly when the secret is non-empty |
| OAuth.RedirectUriAgrees | scripts/module.js:193-200 | the exchange sends the redirect URI the authorization request carried |
| OAuth.RefreshForm | scripts/module.js:243-248 | the refresh form is grant_type, refresh_token, client_id, and client_secret exactly when the secret is non-empty |
| OAuth.TokenPost | scripts/module.js:281-287 | the POST of the form to the token URL with the form content type; `RefreshSpec` and `Session.HandleMessage` state which forms are sent |
| OAuth.TokenResult | scripts/module.js:281-292 | success exactly for a 2xx reply with a JSON body, null giving no token; a non-2xx status fails with that status |
| OAuth.Callback | scripts/module.js:214-233 | ignored exactly when the origin or source tag is wrong; an error is rejected with its description; otherwise the stash is consumed and only a matching state leads to an exchange, with the stashed verifier and the message's code |
| OAuth.Trusted | scripts/module.js:215-217 | the origin and source-tag filter; `Callback` ignores a message exactly when it fails |
| Lorebound.StashIsSingleUse | scripts/module.js:214-227 | the message that consumes the stash sends at most one request, exactly when it leads to an exchange; the next message any remaining handler receives sends nothing and the stash stays gone |
| OAuth.ForgedStateNeverExchanged | scripts/module.js:227 | a message whose state differs from the stashed one never reaches the token endpoint |
| OAuth.AssertConfig | scripts/module.js:256-260 | the check passes exactly when client id, authorize URL and token URL are non-empty |
| OAuth.Prepare | scripts/module.js:188-210 | fails exactly for an incomplete configuration; otherwise the stash holds a valid verifier, the state and `now`, and the query carries that state and the verifier's challenge |
| OAuth.PkceBinding | scripts/module.js:188-233 | when the callback leads to an exchange, it carried the state that was sent, and the verifier sent is the one whose challenge went out |
| OAuth.Refreshed | scripts/module.js:238-254 | a token exactly for a 2xx reply with a JSON object, null for every failure |
| Sync.PagePayload | scripts/module.js:348-352 | the title is the page name; the content is the page's text when it has some, otherwise the placeholder `Content`, so never empty |
| Sync.Plan | scripts/module.js:343-385 | skipped by all three hooks exactly outside the allow-list; update and delete warn exactly without a truthy flag; create POSTs `/notes` with the world id, update PUTs and delete DELETEs `/notes/<flag>`, delete with no body |
| Sync.EndpointNamesNote | scripts/module.js:364-384 | the flag is read back from the path, so two paths are equal exactly when the flags are |
| Sync.UnlistedJournalIgnored | scripts/module.js:345-347 | under any comma-separated allow-list, every hook skips a page exactly when its journal's name is none of the trimmed pieces |
| Sync.AuthorizationHeader | scripts/module.js:395 | the header value; its shape is stated by `AuthorizationHeaderParts` |
| Sync.AuthorizationHeaderParts | scripts/module.js:395 | the header is the scheme (`Bearer` by default), one blank, and the access token, and splits back into these two |
| Sync.ApiRequest | scripts/module.js:390-398 | the verb is the one asked for, the URL is the API base followed by the endpoint, the headers are exactly the JSON type and the token's Authorization header, and there is a body exactly when there is a payload |
| Sync.ReadReply | scripts/module.js:399-404 | a non-2xx status yields undefined, a failed fetch or bad JSON rejects, otherwise the parsed body |
| Sync.Settle | scripts/module.js:353-354 | a rejection propagates; a create completes exactly when it received an object to read `_id` from and otherwise ends in a TypeError; update and delete complete unless rejected |
| Lorebound.Flag | scripts/module.js:366 | a flag is read exactly for a page that has one |
| Lorebound.SetFlag | scripts/module.js:354 | the page's flag reads back as set, and no other page's flag changes |
| Lorebound.RefreshSpec | scripts/module.js:238-254 | without a refresh token nothing is sent and null returned; otherwise one refresh POST, and the reply's token or null |
| Lorebound.EnsureTokenSpec | scripts/module.js:329-341 | an unexpired token is returned with no request and no warning; otherwise the outcome of refresh, normalised and stored; a warning exactly when null is returned |
| Lorebound.EnsureTokenKeepsNormalized | scripts/module.js:329-341 | the token slot and the returned token stay normalised |
| Lorebound.NoRefreshTokenNoRequest | scripts/module.js:332-340 | an expired token without a refresh token gives a warning, null, no request and no change |
| Lorebound.RefreshedTokenIsReused | scripts/module.js:329-337 | a just-refreshed token with a lifetime over the margin is returned by the next call without a request |
| Lorebound.RefreshScenario | scripts/module.js:329-337 | a stale token with refresh token `r1` and a reply with `t2` valid for an hour leave `t2` stored and returned, expiring in one hour |
| Lorebound.HookSpec | scripts/module.js:343-405 | filtered exactly outside the allow-list; warned exactly when update or delete lacks a flag, both with no request and no change; a flag changes only on a completed create, and a completed create sets it to the reply's `_id` |
| Lorebound.ApiOutcome | scripts/module.js:387-404 | no token gives undefined, otherwise the reply as `ReadReply` reads it; `Session.MakeRequest` states that its result is this |
| Lorebound.ApiRequestsCarryToken | scripts/module.js:387-398 | an API request is sent exactly when `ensureToken` gave a token, and carries that normalised token, stored-valid or just refreshed |
| Lorebound.CreateThenUpdate | scripts/module.js:353-371 | after a create records the returned `_id`, update and delete address `/notes/<_id>` |
| Lorebound.Session.constructor | scripts/module.js:28-46 | the default configuration, no token, no stash, no handler, no flag |
| Lorebound.Session.CurrentConfig | scripts/module.js:121-133 | the configuration read from the setting, always complete |
| Lorebound.Session.SetConfig | scripts/module.js:135-138 | the merged configuration is stored and nothing else changes |
| Lorebound.Session.SetToken | scripts/module.js:146-149 | the normalised token is stored and returned |
| Lorebound.Session.ClearToken | scripts/module.js:151-153 | the token slot is emptied |
| Lorebound.Session.Authorize | scripts/module.js:188-236 | the stash is written before the popup; a blocked popup fails with no handler installed; otherwise one handler with the configuration is added |
| Lorebound.Session.HandleMessage | scripts/module.js:214-233 | the handler removes itself and the stash exactly as `Callback` decides, and sends the exchange form built by the loop only for a matching state |
| Lorebound.Session.Refresh | scripts/module.js:238-254 | `refresh` as `RefreshSpec` states, through the form loop |
| Lorebound.Session.EnsureToken | scripts/module.js:329-341 | returns, stores, sends and warns as `EnsureTokenSpec` states |
| Lorebound.Session.MakeRequest | scripts/module.js:387-405 | a token check, then the API request only with a token, and the reply read as `ReadReply` states |
| Lorebound.Session.CreateJournalEntry | scripts/module.js:343-355 | the effect `HookSpec` states for a created page |
| Lorebound.Session.UpdateJournalEntry | scripts/module.js:357-372 | the effect `HookSpec` states for an updated page |
| Lorebound.Session.DeleteJournalEntry | scripts/module.js:374-385 | the effect `HookSpec` states for a deleted page |

## Left out

- Network I/O (`fetch`, `response.json()`, `response.text()`). Each reply is an input value: the promise rejected, a status with a JSON body, JSON `null`, or a body that does not parse. The text of error responses is only logged and is not modelled.
- `crypto.subtle.digest` and `crypto.getRandomValues`. SHA-256 is a parameter returning 32 bytes, and the random bytes are inputs.
- `window.open`, `popup.close()`, listener registration and the promises. The message handler is one step per delivered event. A browser delivers one event to every installed handler in turn; here each handler is one call of `Session.HandleMessage`.
- `sessionStorage` and `game.settings` persistence. They are fields of `Session`, and `game.settings.set` is taken to store the value and return it. `LoreboundTokenStore.get` is a read of the `token` field.
- Concurrency of the hook handlers. Each handler, and the `ensureToken` call inside it, is modelled as running to completion before the next call starts. In the code the handlers are async and yield at every `await`. Two handlers that fire close together can therefore both read the same expired token and both send the `refresh_token` grant with the same refresh token. Such overlapping handlers and duplicate refreshes are not captured, and `Lorebound.RefreshedTokenIsReused` speaks only of calls made one after the other.
- `Date.now()`. It is the parameter `now`. The several clock reads inside one call are taken to give the same time.
- `URLSearchParams` serialisation (percent-encoding and `toString`). Queries and forms are sequences of key/value pairs, and the authorization URL is its base URL plus its query.
- `LoreboundSettingsForm`, `registerMenus`, hook registration, templates and `game.i18n`. These are UI and host glue. The settings form's `_handleLogin` passes the token `authorize` resolves to `Session.SetToken`.
- `registerSettings` beyond the default of the `oauthConfig` setting. That default is `Settings.DefaultSettings`, which the `Session` constructor stores, and the `oauthToken` default `null` is the constructor's empty token.
- Notifications (`ui.notifications`), except two that are kept as values. The `TokenMissing` warning of `ensureToken` is `TokenCheck.warned`. The `FetchError` notification of `makeRequest` is `ApiResult.HttpError`. The notifications of the settings form are left out with the form.
- Logging (`Lorebound.log/warn/error`), except one log that is kept. The `Lorebound.warn` for a page without an `externalId` flag is `HookOutcome.Warned`. Every other log message is left out, including the `Lorebound.warn` of an API error (the `HttpError` outcome records that the request failed).
- Tokens.Describe: the locale-formatted expiry label and the icons are not modelled; only whether the user is connected and which expiry time would be shown are.
- Sync.AuthorizationHeaderParts: a missing access token renders as `undefined`; a `null` one, which the code would render as `null`, is not distinguished.
- Tokens.Normalize: `expires_in` is a whole number of seconds; fractional and non-numeric values, and NaN, are not modelled.
- Lorebound.SetFlag: setting the flag to `undefined` is modelled as removing it.
- Sync.Plan: a page's parent journal always has a name.
- Pkce.Utf8: the contract states only that ASCII text encodes to one byte per character; the multi-byte cases are defined but not specified further.
- Pkce.Utf8: lone surrogate code units, which `TextEncoder` replaces, are not modelled.

=== FILE: base64.dfy ===
/** `_base64UrlEncode` (scripts/module.js:302-305): the bytes go through
    `btoa` (standard base64 with padding, section 4 of RFC 4648), then `+`
    becomes `-`, `/` becomes `_` and the trailing `=` are cut off. This
    module defines both encodings from RFC 4648 itself, proves that the
    three string rewrites turn the first into the unpadded base64url
    encoding of section 5, and gives that encoding its decoder. */
module Base64 {
  import opened Common

  /** A six-bit group, the index of one base64 character. */
  type Sextet = i: int | 0 <= i < 64

  /** The standard alphabet, Table 1 of RFC 4648. */
  function StdChar(i: Sextet): char {
    if i < 26 then ('A' as int + i) as char
    else if i < 52 then ('a' as int + (i - 26)) as char
    else if i < 62 then ('0' as int + (i - 52)) as char
    else if i == 62 then '+'
    else '/'
  }

  /** The URL- and filename-safe alphabet, Table 2 of RFC 4648. */
  function UrlChar(i: Sextet): char {
    if i < 26 then ('A' as int + i) as char
    else if i < 52 then ('a' as int + (i - 26)) as char
    else if i < 62 then ('0' as int + (i - 52)) as char
    else if i == 62 then '-'
    else '_'
  }

  predicate IsUrlChar(c: char) {
    ('A' <= c <= 'Z') || ('a' <= c <= 'z') || ('0' <= c <= '9') || c == '-' || c == '_'
  }

  /** The position of a character in Table 2. */
  function UrlIndex(c: char): (i: Sextet)
    requires IsUrlChar(c)
    ensures UrlChar(i) == c
  {
    if 'A' <= c <= 'Z' then c as int - 'A' as int
    else if 'a' <= c <= 'z' then c as int - 'a' as int + 26
    else if '0' <= c <= '9' then c as int - '0' as int + 52
    else if c == '-' then 62
    else 63
  }

  /** Reading a character of Table 2 back gives its index. */
  lemma UrlIndexOfChar(i: Sextet)
    ensures IsUrlChar(UrlChar(i)) && UrlIndex(UrlChar(i)) == i
  {
  }

  // The four sextets of a 24-bit group b0 b1 b2, missing bytes being zero
  // (section 4 of RFC 4648).
  function S0(b0: byte): Sextet { b0 / 4 }
  function S1(b0: byte, b1: byte): Sextet { (b0 % 4) * 16 + b1 / 16 }
  function S2(b1: byte, b2: byte): Sextet { (b1 % 16) * 4 + b2 / 64 }
  function S3(b2: byte): Sextet { b2 % 64 }

  // The bytes of a group, rebuilt from its sextets.
  function B0(i0: Sextet, i1: Sextet): byte { i0 * 4 + i1 / 16 }
  function B1(i1: Sextet, i2: Sextet): byte { (i1 % 16) * 16 + i2 / 4 }
  function B2(i2: Sextet, i3: Sextet): byte { (i2 % 4) * 64 + i3 }

  /** Splitting a group into sextets and joining them back is the identity. */
  lemma GroupRoundTrip(b0: byte, b1: byte, b2: byte)
    ensures B0(S0(b0), S1(b0, b1)) == b0
    ensures B1(S1(b0, b1), S2(b1, b2)) == b1
    ensures B2(S2(b1, b2), S3(b2)) == b2
  {
    assert S1(b0, b1) / 16 == b0 % 4;
    assert S1(b0, b1) % 16 == b1 / 16;
    assert S2(b1, b2) / 4 == b1 % 16;
    assert S2(b1, b2) % 4 == b2 / 64;
  }

  /** The sextets of a byte string, three bytes giving four sextets and a
      final partial group of one or two bytes giving two or three, the
      missing bits being zero (sections 4 and 5 of RFC 4648). */
  function Sextets(b: seq<byte>): (xs: seq<Sextet>)
    ensures |xs| == EncodedLength(|b|)
    decreases |b|
  {
    if |b| == 0 then []
    else if |b| == 1 then [S0(b[0]), S1(b[0], 0)]
    else if |b| == 2 then [S0(b[0]), S1(b[0], b[1]), S2(b[1], 0)]
    else [S0(b[0]), S1(b[0], b[1]), S2(b[1], b[2]), S3(b[2])] + Sextets(b[3..])
  }

  /** The number of sextets n bytes give: four per full group of three, two
      or three for a final partial group. */
  function EncodedLength(n: nat): nat {
    if n == 0 then 0 else if n == 1 then 2 else if n == 2 then 3 else 4 + EncodedLength(n - 3)
  }

  /** That is ceil(4n/3), and never one more than a multiple of four. */
  lemma {:induction false} EncodedLengthValue(n: nat)
    ensures EncodedLength(n) == (4 * n + 2) / 3
  {
    if n >= 3 {
      EncodedLengthValue(n - 3);
    }
  }

  lemma {:induction false} EncodedLengthDecodable(n: nat)
    ensures DecodableLength(EncodedLength(n))
  {
    if n >= 3 {
      EncodedLengthDecodable(n - 3);
    }
  }

  /** The lengths an unpadded encoding can have: a multiple of four, plus
      two or three for a final partial group. */
  function DecodableLength(n: nat): bool {
    if n < 4 then n != 1 else DecodableLength(n - 4)
  }

  /** The bytes rebuilt from the sextets of an unpadded encoding. */
  function Bytes(xs: seq<Sextet>): seq<byte>
    requires DecodableLength(|xs|)
    decreases |xs|
  {
    if |xs| == 0 then []
    else if |xs| == 2 then [B0(xs[0], xs[1])]
    else if |xs| == 3 then [B0(xs[0], xs[1]), B1(xs[1], xs[2])]
    else [B0(xs[0], xs[1]), B1(xs[1], xs[2]), B2(xs[2], xs[3])] + Bytes(xs[4..])
  }

  /** Regrouping the sextets into bytes gives the bytes back. */
  lemma {:induction false} SextetsRoundTrip(b: seq<byte>)
    ensures DecodableLength(|Sextets(b)|)
    ensures Bytes(Sextets(b)) == b
    decreases |b|
  {
    EncodedLengthDecodable(|b|);
    if |b| == 1 {
      assert b == [b[0]];
      OneByteRoundTrip(b[0]);
    } else if |b| == 2 {
      assert b == [b[0], b[1]];
      TwoBytesRoundTrip(b[0], b[1]);
    } else if |b| >= 3 {
      var xs := Sextets(b);
      var group := [S0(b[0]), S1(b[0], b[1]), S2(b[1], b[2]), S3(b[2])];
      assert xs == group + Sextets(b[3..]);
      assert xs[4..] == Sextets(b[3..]);
      SextetsRoundTrip(b[3..]);
      GroupRoundTrip(b[0], b[1], b[2]);
      assert Bytes(xs) == [b[0], b[1], b[2]] + Bytes(xs[4..]);
      assert b == [b[0], b[1], b[2]] + b[3..];
    }
  }

  lemma OneByteRoundTrip(b0: byte)
    ensures Bytes(Sextets([b0])) == [b0]
  {
    var xs := [S0(b0), S1(b0, 0)];
    assert Sextets([b0]) == xs;
    GroupRoundTrip(b0, 0, 0);
  }

  lemma TwoBytesRoundTrip(b0: byte, b1: byte)
    ensures Bytes(Sextets([b0, b1])) == [b0, b1]
  {
    var xs := [S0(b0), S1(b0, b1), S2(b1, 0)];
    assert Sextets([b0, b1]) == xs;
    GroupRoundTrip(b0, b1, 0);
  }

  /** The characters of a sextet string in the Table 2 alphabet. */
  function UrlChars(xs: seq<Sextet>): (s: string)
    ensures |s| == |xs|
    ensures forall k | 0 <= k < |xs| :: s[k] == UrlChar(xs[k]) && IsUrlChar(s[k])
  {
    seq(|xs|, k requires 0 <= k < |xs| => UrlChar(xs[k]))
  }

  /** The sextets a string of Table 2 characters stands for. */
  function UrlIndices(s: string): (xs: seq<Sextet>)
    requires forall k | 0 <= k < |s| :: IsUrlChar(s[k])
    ensures |xs| == |s|
  {
    seq(|s|, k requires 0 <= k < |s| => UrlIndex(s[k]))
  }

  /** base64url without padding (sections 5 and 3.2 of RFC 4648): ceil(4n/3)
      characters, every one of them from Table 2, so never `=`. */
  function UrlEncode(b: seq<byte>): (s: string)
    ensures |s| == (4 * |b| + 2) / 3
    ensures forall k | 0 <= k < |s| :: IsUrlChar(s[k])
  {
    EncodedLengthValue(|b|);
    UrlChars(Sextets(b))
  }

  /** The decoder of `UrlEncode`, for strings of Table 2 characters whose
      length a byte string can give. */
  function UrlDecode(s: string): seq<byte>
    requires forall k | 0 <= k < |s| :: IsUrlChar(s[k])
    requires DecodableLength(|s|)
  {
    Bytes(UrlIndices(s))
  }

  /** The encoding loses nothing: decoding it gives the bytes back. So two
      different digests never give the same challenge. */
  lemma UrlRoundTrip(b: seq<byte>)
    ensures DecodableLength(|UrlEncode(b)|)
    ensures UrlDecode(UrlEncode(b)) == b
  {
    var xs := Sextets(b);
    SextetsRoundTrip(b);
    assert UrlIndices(UrlChars(xs)) == xs by {
      forall k | 0 <= k < |xs| ensures UrlIndices(UrlChars(xs))[k] == xs[k] {
        UrlIndexOfChar(xs[k]);
      }
    }
  }

  /** What `btoa` produces for a binary string: standard base64 (section 4
      of RFC 4648), the same sextets in the Table 1 alphabet, padded with
      `=` to a multiple of four characters. */
  function StdEncode(b: seq<byte>): (s: string)
    ensures |s| == 4 * ((|b| + 2) / 3)
    ensures |s| % 4 == 0
  {
    EncodedLengthValue(|b|);
    var xs := Sextets(b);
    seq(|xs|, k requires 0 <= k < |xs| => StdChar(xs[k]))
      + (if |b| % 3 == 1 then "==" else if |b| % 3 == 2 then "=" else "")
  }

  /** `s.replace(/x/g, y)` for one character. */
  function ReplaceAll(s: string, x: char, y: char): (r: string)
    ensures |r| == |s|
    ensures forall k | 0 <= k < |s| :: r[k] == if s[k] == x then y else s[k]
  {
    seq(|s|, k requires 0 <= k < |s| => if s[k] == x then y else s[k])
  }

  /** `s.replace(/=+$/, "")`: the run of `=` at the end is removed. */
  function TrimPadding(s: string): (r: string)
    ensures |r| <= |s| && r == s[..|r|]
    ensures r == [] || r[|r| - 1] != '='
    ensures forall k | |r| <= k < |s| :: s[k] == '='
    decreases |s|
  {
    if |s| > 0 && s[|s| - 1] == '=' then TrimPadding(s[..|s| - 1]) else s
  }

  /** Only the run at the very end is removed. */
  lemma {:induction false} TrimPaddingAppend(x: string, y: string)
    requires x == [] || x[|x| - 1] != '='
    requires forall k | 0 <= k < |y| :: y[k] == '='
    ensures TrimPadding(x + y) == x
    decreases |y|
  {
    if |y| > 0 {
      assert (x + y)[..|x + y| - 1] == x + y[..|y| - 1];
      TrimPaddingAppend(x, y[..|y| - 1]);
    } else {
      assert x + y == x;
    }
  }

  /** The two character rewrites `_base64UrlEncode` applies. */
  function ToUrlAlphabet(s: string): (r: string)
    ensures |r| == |s|
    ensures forall k | 0 <= k < |r| :: r[k] != '+' && r[k] != '/'
    ensures forall k | 0 <= k < |s| :: s[k] != '+' && s[k] != '/' ==> r[k] == s[k]
  {
    ReplaceAll(ReplaceAll(s, '+', '-'), '/', '_')
  }

  /** `_base64UrlEncode` as written: `btoa`, then the two replacements,
      then the padding cut off. It is exactly the unpadded base64url
      encoding of RFC 4648. */
  function Base64UrlEncode(b: seq<byte>): (s: string)
    ensures s == UrlEncode(b)
    ensures |s| == (4 * |b| + 2) / 3
    ensures forall k | 0 <= k < |s| :: IsUrlChar(s[k]) && s[k] != '='
  {
    AsWrittenIsUrlEncode(b);
    TrimPadding(ToUrlAlphabet(StdEncode(b)))
  }

  lemma AsWrittenIsUrlEncode(b: seq<byte>)
    ensures TrimPadding(ToUrlAlphabet(StdEncode(b))) == UrlEncode(b)
  {
    var xs := Sextets(b);
    var body := UrlChars(xs);
    var pad: string := if |b| % 3 == 1 then "==" else if |b| % 3 == 2 then "=" else "";
    assert ToUrlAlphabet(StdEncode(b)) == body + pad by {
      forall k | 0 <= k < |xs| ensures ToUrlAlphabet(StdEncode(b))[k] == body[k] {
        assert StdEncode(b)[k] == StdChar(xs[k]);
      }
    }
    assert |xs| > 0 ==> body[|xs| - 1] != '=';
    TrimPaddingAppend(body, pad);
  }
}

=== FILE: common.dfy ===
/** Shared vocabulary: optional values, results, bytes, and the few
    JavaScript coercions (truthiness, `??`, `||`, template-string
    rendering) the module relies on. */
module Common {

  /** A JavaScript value that may be `null`, `undefined` or absent (`None`). */
  datatype Option<+T> = None | Some(value: T)

  datatype Result<+T, +E> = Success(value: T) | Failure(error: E)

  /** One element of a `Uint8Array`. */
  type byte = b: int | 0 <= b < 256

  /** A string is truthy in JavaScript exactly when it is present and non-empty. */
  predicate Truthy(s: Option<string>) {
    s.Some? && s.value != ""
  }

  /** A number is truthy when it is present and not zero (NaN is not modelled). */
  predicate TruthyNum(n: Option<int>) {
    n.Some? && n.value != 0
  }

  /** `s ?? d`: the default replaces only a nullish value. */
  function Nullish<T>(s: Option<T>, d: T): T {
    if s.Some? then s.value else d
  }

  /** `s || d` on strings: the default replaces every falsy value, the empty string included. */
  function OrElse(s: Option<string>, d: string): string {
    if Truthy(s) then s.value else d
  }

  /** `${s}` in a template literal: `undefined` renders as the word itself. */
  function Render(s: Option<string>): string {
    if s.Some? then s.value else "undefined"
  }
}

=== FILE: http.dfy ===
/** The requests the module sends with `fetch` and the replies it can
    get back. A request is a value the model returns instead of sending
    it; a reply is a value the caller supplies. */
module Http {
  import opened Common

  datatype Verb = POST | PUT | DELETE

  /** The JSON object the notes API receives. A field that is `None` is
      `undefined` in the source, which `JSON.stringify` leaves out. */
  datatype NotePayload = NotePayload(title: Option<string>, content: string, worldId: Option<string>)

  datatype Body =
    | NoBody
    | Form(fields: seq<(string, string)>)
    | Json(note: NotePayload)

  datatype Request = Request(verb: Verb, url: string, headers: seq<(string, string)>, body: Body)

  /** What `response.json()` makes of a body: a JSON value of the expected
      shape, JSON `null`, or a parse failure. */
  datatype JsonBody<T> = Malformed | JsonNull | Parsed(value: T)

  /** The outcome of one `fetch`: the promise rejected, or a response. */
  datatype Reply<T> = Unreachable | Response(status: int, body: JsonBody<T>)

  /** `response.ok`. */
  predicate Ok(status: int) {
    200 <= status <= 299
  }
}

=== FILE: lorebound.dfy ===
/** The state the module keeps across calls, and the operations that
    change it (scripts/module.js:120-405): the `oauthConfig` world setting,
    the `oauthToken` client setting, the PKCE stash in session storage,
    the installed `message` handlers, and the `externalId` flags of
    journal pages. Each operation is a method of `Session` proved against
    a function of the old state and its inputs; what the source promises
    is proved about those functions. */
module Lorebound {
  import opened Common
  import opened Settings
  import opened Tokens
  import opened Http
  import opened Pkce
  import opened OAuth
  import opened Sync

  /** A token as `LoreboundTokenStore.set` leaves it: both absolute times
      present. */
  predicate Normalized(t: Option<RawToken>) {
    t.None? || (t.value.expiresAt.Some? && t.value.receivedAt.Some?)
  }

  /** `doc.getFlag(MODULE_ID, "externalId")`. */
  function Flag(flags: map<DocId, string>, id: DocId): (f: Option<string>)
    ensures f.Some? <==> id in flags
    ensures f.Some? ==> f.value == flags[id]
  {
    if id in flags then Some(flags[id]) else None
  }

  /** `doc.setFlag(MODULE_ID, "externalId", value)`; an undefined value
      leaves the page without a flag. */
  function SetFlag(flags: map<DocId, string>, id: DocId, value: Option<string>): (r: map<DocId, string>)
    ensures Flag(r, id) == value
    ensures forall other | other != id :: Flag(r, other) == Flag(flags, other)
  {
    if value.Some? then flags[id := value.value] else flags - {id}
  }

  /** `refresh`: nothing is sent without a refresh token; otherwise one
      POST of the `refresh_token` grant, and the reply's token, or `null`
      when anything fails. */
  function RefreshSpec(stored: Option<RawToken>, config: Config, reply: Reply<RawToken>): (r: (Option<RawToken>, seq<Request>))
    ensures !(stored.Some? && Truthy(stored.value.refreshToken)) ==> r.0.None? && r.1 == []
    ensures stored.Some? && Truthy(stored.value.refreshToken) ==>
      && r.1 == [TokenPost(config, Present(RefreshBody(stored.value.refreshToken.value, config)))]
      && r.0 == Refreshed(reply)
  {
    if stored.None? || !Truthy(stored.value.refreshToken) then (None, [])
    else (Refreshed(reply), [TokenPost(config, Present(RefreshBody(stored.value.refreshToken.value, config)))])
  }

  /** What `ensureToken` returns, what the token slot holds afterwards, what
      it sent and whether it warned. */
  datatype TokenCheck = TokenCheck(result: Option<RawToken>, stored: Option<RawToken>, sent: seq<Request>, warned: bool)

  /** `ensureToken`: a stored token that is not expired is returned as it
      is; otherwise, when it has a refresh token, a successful refresh is
      normalised, stored and returned; in every other case the user is
      warned and `null` returned. */
  function EnsureTokenSpec(stored: Option<RawToken>, config: Config, now: nat, reply: Reply<RawToken>): (c: TokenCheck)
    ensures !IsExpired(stored, now) ==> c == TokenCheck(stored, stored, [], false)
    ensures c.warned <==> c.result.None?
    ensures c.stored != stored ==> c.result.Some? && c.stored == c.result
    ensures c.result.Some? ==> c.result == c.stored
    ensures c.sent != [] ==> c.sent == RefreshSpec(stored, config, reply).1
    ensures IsExpired(stored, now) ==>
      && c.sent == RefreshSpec(stored, config, reply).1
      && c.result == Normalize(RefreshSpec(stored, config, reply).0, now)
  {
    if stored.Some? && !IsExpired(stored, now) then TokenCheck(stored, stored, [], false)
    else
      var (refreshed, sent) := RefreshSpec(stored, config, reply);
      if refreshed.Some? then
        var normalized := Normalize(refreshed, now);
        TokenCheck(normalized, normalized, sent, false)
      else TokenCheck(None, stored, sent, true)
  }

  /** Whatever happens, the token slot only ever holds a normalised token
      if it did before, and a token `ensureToken` hands out is normalised. */
  lemma EnsureTokenKeepsNormalized(stored: Option<RawToken>, config: Config, now: nat, reply: Reply<RawToken>)
    requires Normalized(stored)
    ensures Normalized(EnsureTokenSpec(stored, config, now, reply).stored)
    ensures Normalized(EnsureTokenSpec(stored, config, now, reply).result)
  {
  }

  /** An expired token without a refresh token is never renewed: the user
      is warned, nothing is sent and the slot is left as it was. */
  lemma NoRefreshTokenNoRequest(stored: Option<RawToken>, config: Config, now: nat, reply: Reply<RawToken>)
    requires IsExpired(stored, now)
    requires stored.None? || !Truthy(stored.value.refreshToken)
    ensures EnsureTokenSpec(stored, config, now, reply) == TokenCheck(None, stored, [], true)
  {
  }

  /** A token `ensureToken` just stored after a refresh with a lifetime of
      more than the one-minute margin is valid, so the next call at the
      same time returns it without a request. */
  lemma RefreshedTokenIsReused(stored: Option<RawToken>, config: Config, now: nat, reply: Reply<RawToken>, again: Reply<RawToken>)
    requires IsExpired(stored, now)
    requires EnsureTokenSpec(stored, config, now, reply).result.Some?
    requires reply.body.value.expiresAt.None?
    requires !TruthyNum(reply.body.value.expiresIn) || reply.body.value.expiresIn.value * 1000 > EXPIRY_MARGIN_MS
    ensures var c := EnsureTokenSpec(stored, config, now, reply);
      EnsureTokenSpec(c.stored, config, now, again) == TokenCheck(c.stored, c.stored, [], false)
  {
    FreshTokenExpiry(reply.body.value, now);
  }

  /** A stale token with a refresh token, and a refresh reply carrying a
      new access token valid for an hour: `ensureToken` sends one refresh
      request and stores and returns the new token, expiring an hour from
      now. */
  lemma RefreshScenario(config: Config, now: nat, stale: RawToken)
    requires stale.accessToken == Some("t1") && stale.expiresAt == Some(now - 1000)
    requires stale.refreshToken == Some("r1")
    ensures var renewed := RawToken(Some("t2"), None, None, Some(3600), None, None, map[]);
      var c := EnsureTokenSpec(Some(stale), config, now, Response(200, Parsed(renewed)));
      && c.result.Some? && c.stored == c.result
      && c.result.value.accessToken == Some("t2")
      && c.result.value.expiresAt == Some(now + 3_600_000)
      && c.sent == [TokenPost(config, Present(RefreshBody("r1", config)))]
      && !c.warned
  {
  }

  /** What a hook handler does to the world: its outcome, the requests it
      sent, the token slot and the flags afterwards. */
  datatype Effect = Effect(outcome: HookOutcome, sent: seq<Request>, token: Option<RawToken>, flags: map<DocId, string>)

  /** The result `makeRequest` settles to after `ensureToken` gave `check`. */
  function ApiOutcome(check: TokenCheck, reply: Reply<NoteReply>): ApiResult {
    if check.result.None? then NoToken else ReadReply(reply)
  }

  /** One of the three hook handlers on a page: the plan, then for a
      dispatch `makeRequest` (a token check, then the API request when there
      is a token), then, on creation, the `_id` of the reply recorded as the
      page's flag. */
  function HookSpec(hook: Hook, page: Page, config: Config, token: Option<RawToken>, flags: map<DocId, string>,
                    now: nat, refreshReply: Reply<RawToken>, reply: Reply<NoteReply>): (e: Effect)
    ensures e.outcome == Filtered <==> !Admits(AllowedJournals(config.allowedJournals), page.parentName)
    ensures e.outcome == Warned <==> Plan(hook, page, config, Flag(flags, page.id)).MissingId?
    ensures e.outcome in {Filtered, Warned} ==> e.sent == [] && e.token == token && e.flags == flags
    ensures hook != Created ==> e.flags == flags
    ensures e.flags != flags ==>
      hook == Created && e.outcome == Completed && reply.Response? && reply.body.Parsed?
      && e.flags == SetFlag(flags, page.id, reply.body.value.id)
    ensures e.outcome == TypeError ==> hook == Created && e.flags == flags
    ensures hook == Created && e.outcome == Completed ==>
      reply.Response? && reply.body.Parsed? && e.flags == SetFlag(flags, page.id, reply.body.value.id)
    ensures var a := Plan(hook, page, config, Flag(flags, page.id));
      var check := EnsureTokenSpec(token, config, now, refreshReply);
      a.Dispatch? ==>
        && e.token == check.stored
        && e.outcome == Settle(hook, ApiOutcome(check, reply))
        && e.sent == check.sent + (if check.result.Some?
                                   then [ApiRequest(config, a.endpoint, a.verb, check.result.value, a.payload)]
                                   else [])
  {
    var a := Plan(hook, page, config, Flag(flags, page.id));
    match a
    case Skip => Effect(Filtered, [], token, flags)
    case MissingId => Effect(Warned, [], token, flags)
    case Dispatch(verb, endpoint, payload) =>
      var check := EnsureTokenSpec(token, config, now, refreshReply);
      var sent := check.sent + (if check.result.Some? then [ApiRequest(config, endpoint, verb, check.result.value, payload)] else []);
      var result := ApiOutcome(check, reply);
      var flags' := if hook == Created && result.Returned? && result.value.Some?
                    then SetFlag(flags, page.id, result.value.value.id) else flags;
      Effect(Settle(hook, result), sent, check.stored, flags')
  }

  /** No request reaches the notes API without a token: every API request a
      hook sends carries the Authorization header of a token that is
      normalised and was either stored and unexpired or just refreshed. */
  lemma ApiRequestsCarryToken(hook: Hook, page: Page, config: Config, token: Option<RawToken>, flags: map<DocId, string>,
                              now: nat, refreshReply: Reply<RawToken>, reply: Reply<NoteReply>)
    requires Normalized(token)
    requires HookSpec(hook, page, config, token, flags, now, refreshReply, reply).outcome !in {Filtered, Warned}
    ensures var e := HookSpec(hook, page, config, token, flags, now, refreshReply, reply);
      var check := EnsureTokenSpec(token, config, now, refreshReply);
      (|e.sent| > |check.sent| <==> check.result.Some?)
      && (check.result.Some? ==>
            && Normalized(check.result)
            && ("Authorization", AuthorizationHeader(check.result.value)) in e.sent[|e.sent| - 1].headers
            && (check.result == token || check.result == Normalize(Refreshed(refreshReply), now)))
  {
    var check := EnsureTokenSpec(token, config, now, refreshReply);
    EnsureTokenKeepsNormalized(token, config, now, refreshReply);
  }

  /** The create-then-update scenario: once creating a page recorded the
      `_id` the API returned, updating and deleting that page address the
      same note. */
  lemma CreateThenUpdate(page: Page, config: Config, token: Option<RawToken>, flags: map<DocId, string>,
                         now: nat, refreshReply: Reply<RawToken>, reply: Reply<NoteReply>, hook: Hook)
    requires hook != Created
    requires reply.Response? && reply.body.Parsed? && Truthy(reply.body.value.id)
    requires HookSpec(Created, page, config, token, flags, now, refreshReply, reply).outcome == Completed
    ensures var after := HookSpec(Created, page, config, token, flags, now, refreshReply, reply).flags;
      var a := Plan(hook, page, config, Flag(after, page.id));
      a.Dispatch? && a.endpoint == NOTE_PATH_PREFIX + reply.body.value.id.value
  {
  }

  /** The stash is single-use: once a message made a handler consume it,
      the next message any remaining handler receives sends nothing,
      whatever it carries, and the stash stays gone. */
  method StashIsSingleUse(s: Session, k: nat, event: MessageEvent, reply: Reply<RawToken>,
                          j: nat, again: MessageEvent, replyAgain: Reply<RawToken>)
    returns (first: seq<Request>, second: seq<Request>)
    requires k < |s.listeners| && j < |s.listeners| - 1
    requires ConsumesStash(Callback(s.stash, event, s.origin))
    modifies s
    ensures |first| <= 1 && (first != [] <==> Callback(old(s.stash), event, s.origin).Exchange?)
    ensures s.stash.None? && second == []
  {
    var _, sent := s.HandleMessage(k, event, reply);
    first := sent;
    var _, sentAgain := s.HandleMessage(j, again, replyAgain);
    second := sentAgain;
  }

  /** The session: the module's persistent state and its operations. */
  class Session {
    /** `window.location.origin`. */
    const origin: string
    /** The `oauthConfig` world setting. */
    var settings: StoredConfig
    /** The `oauthToken` client setting. */
    var token: Option<RawToken>
    /** The `Lorebound.pkce` entry of session storage. */
    var stash: Option<Stash>
    /** The `message` handlers `authorize` installed and that have not
        removed themselves, each with the configuration it captured. */
    var listeners: seq<Config>
    /** The `externalId` flags of journal pages. */
    var flags: map<DocId, string>

    /** The token slot holds nothing or a normalised token. */
    predicate Valid()
      reads this
    {
      Normalized(token)
    }

    /** The state right after the settings are registered: the default
        configuration and no token. */
    constructor(origin: string)
      ensures this.origin == origin && settings == DefaultSettings(origin)
      ensures token.None? && stash.None? && listeners == [] && flags == map[]
      ensures Valid()
    {
      this.origin := origin;
      settings := DefaultSettings(origin);
      token := None;
      stash := None;
      listeners := [];
      flags := map[];
    }

    /** `LoreboundConfig.get`. */
    function CurrentConfig(): (c: Config)
      reads this
      ensures Complete(c)
    {
      GetIsComplete(settings, origin);
      Get(settings, origin)
    }

    /** `LoreboundConfig.set`: the merge of the current configuration and
        the patch is stored. */
    method SetConfig(patch: ConfigPatch)
      modifies this
      ensures settings == Merge(old(settings), patch, origin)
      ensures token == old(token) && stash == old(stash) && listeners == old(listeners) && flags == old(flags)
    {
      settings := Merge(settings, patch, origin);
    }

    /** `LoreboundTokenStore.set`: the normalised token is stored and
        returned. */
    method SetToken(raw: Option<RawToken>, now: nat) returns (stored: Option<RawToken>)
      modifies this
      ensures token == Normalize(raw, now) && stored == token
      ensures Valid()
      ensures settings == old(settings) && stash == old(stash) && listeners == old(listeners) && flags == old(flags)
    {
      token := Normalize(raw, now);
      stored := token;
    }

    /** `LoreboundTokenStore.clear`. */
    method ClearToken()
      modifies this
      ensures token.None? && Valid()
      ensures settings == old(settings) && stash == old(stash) && listeners == old(listeners) && flags == old(flags)
    {
      token := None;
    }

    /** `authorize` up to its pending promise: the stash is written before
        the popup opens, so a blocked popup leaves it behind; a popup that
        opened gets a message handler holding the configuration. The
        configuration check cannot fail here. */
    method Authorize(now: nat, sha256: seq<byte> -> Digest, verifierBytes: seq<byte>, stateBytes: seq<byte>,
                     popupOpened: bool) returns (r: Result<Launch, AuthError>)
      requires |verifierBytes| == VERIFIER_LENGTH && |stateBytes| == STATE_LENGTH
      modifies this
      ensures var config := Get(old(settings), origin);
        var p := Prepare(config, origin, now, sha256, verifierBytes, stateBytes);
        && p.Success?
        && stash == Some(p.value.stash)
        && (popupOpened ==> r == p && listeners == old(listeners) + [config])
        && (!popupOpened ==> r == Failure(PopupBlocked) && listeners == old(listeners))
      ensures settings == old(settings) && token == old(token) && flags == old(flags)
    {
      var config := CurrentConfig();
      var p := Prepare(config, origin, now, sha256, verifierBytes, stateBytes);
      stash := Some(p.value.stash);
      if !popupOpened {
        r := Failure(PopupBlocked);
        return;
      }
      listeners := listeners + [config];
      r := p;
    }

    /** The `k`-th installed handler receiving a message event, with the
        reply the token endpoint gives if a code is exchanged. A handler
        that acts removes itself; the stash is removed before the state is
        compared; only a matching state leads to the POST of the code, the
        stashed verifier and the captured configuration's redirect URI. */
    method HandleMessage(k: nat, event: MessageEvent, reply: Reply<RawToken>)
      returns (outcome: AuthOutcome, sent: seq<Request>)
      requires k < |listeners|
      modifies this
      ensures var config, step := old(listeners[k]), Callback(old(stash), event, origin);
        && listeners == (if step.Ignore? then old(listeners) else old(listeners[..k] + listeners[k + 1..]))
        && stash == (if ConsumesStash(step) then None else old(stash))
        && (step.Ignore? ==> outcome == Pending && sent == [])
        && (step.Deny? ==> outcome == Settled(Failure(Denied(step.reason))) && sent == [])
        && (step.Mismatch? ==> outcome == Settled(Failure(StateMismatch)) && sent == [])
        && (step.Exchange? ==>
              && sent == [TokenPost(config, Present(ExchangeBody(step.code, step.verifier, config, origin)))]
              && outcome == Settled(TokenResult(reply)))
      ensures settings == old(settings) && token == old(token) && flags == old(flags)
    {
      var config := listeners[k];
      var step := Callback(stash, event, origin);
      if step.Ignore? {
        outcome, sent := Pending, [];
        return;
      }
      listeners := listeners[..k] + listeners[k + 1..];
      if step.Deny? {
        outcome, sent := Settled(Failure(Denied(step.reason))), [];
        return;
      }
      stash := None;
      if step.Mismatch? {
        outcome, sent := Settled(Failure(StateMismatch)), [];
        return;
      }
      GrantBodiesHaveDistinctKeys(step.code, step.verifier, "", config, origin);
      var form := TokenForm(ExchangeBody(step.code, step.verifier, config, origin));
      sent := [TokenPost(config, form)];
      outcome := Settled(TokenResult(reply));
    }

    /** `refresh`, which reads the state and changes nothing. */
    method Refresh(reply: Reply<RawToken>) returns (refreshed: Option<RawToken>, sent: seq<Request>)
      ensures (refreshed, sent) == RefreshSpec(token, CurrentConfig(), reply)
    {
      var config := CurrentConfig();
      if token.None? || !Truthy(token.value.refreshToken) {
        return None, [];
      }
      GrantBodiesHaveDistinctKeys(None, "", token.value.refreshToken.value, config, origin);
      var form := TokenForm(RefreshBody(token.value.refreshToken.value, config));
      sent := [TokenPost(config, form)];
      refreshed := Refreshed(reply);
    }

    /** `ensureToken`. */
    method EnsureToken(now: nat, reply: Reply<RawToken>) returns (result: Option<RawToken>, sent: seq<Request>, warned: bool)
      requires Valid()
      modifies this
      ensures TokenCheck(result, token, sent, warned) == EnsureTokenSpec(old(token), Get(old(settings), origin), now, reply)
      ensures Valid()
      ensures settings == old(settings) && stash == old(stash) && listeners == old(listeners) && flags == old(flags)
    {
      if token.Some? && !IsExpired(token, now) {
        return token, [], false;
      }
      var refreshed;
      refreshed, sent := Refresh(reply);
      if refreshed.Some? {
        result := SetToken(refreshed, now);
        warned := false;
        return;
      }
      result, warned := None, true;
    }

    /** `makeRequest`: a token check, then, with a token, the JSON request
        to the API. */
    method MakeRequest(endpoint: string, verb: Verb, payload: Option<NotePayload>, now: nat,
                       refreshReply: Reply<RawToken>, reply: Reply<NoteReply>)
      returns (result: ApiResult, sent: seq<Request>)
      requires Valid()
      modifies this
      ensures var check := EnsureTokenSpec(old(token), Get(old(settings), origin), now, refreshReply);
        && token == check.stored
        && result == ApiOutcome(check, reply)
        && sent == check.sent + (if check.result.Some?
                                 then [ApiRequest(Get(old(settings), origin), endpoint, verb, check.result.value, payload)]
                                 else [])
      ensures Valid()
      ensures settings == old(settings) && stash == old(stash) && listeners == old(listeners) && flags == old(flags)
    {
      var t, s, _ := EnsureToken(now, refreshReply);
      sent := s;
      if t.None? {
        result := NoToken;
        return;
      }
      sent := sent + [ApiRequest(CurrentConfig(), endpoint, verb, t.value, payload)];
      result := ReadReply(reply);
    }

    /** `createJournalEntry`. */
    method CreateJournalEntry(page: Page, now: nat, refreshReply: Reply<RawToken>, reply: Reply<NoteReply>)
      returns (outcome: HookOutcome, sent: seq<Request>)
      requires Valid()
      modifies this
      ensures Effect(outcome, sent, token, flags) ==
        HookSpec(Created, page, Get(old(settings), origin), old(token), old(flags), now, refreshReply, reply)
      ensures Valid()
      ensures settings == old(settings) && stash == old(stash) && listeners == old(listeners)
    {
      var a := Plan(Created, page, CurrentConfig(), Flag(flags, page.id));
      if a.Skip? {
        return Filtered, [];
      }
      var result;
      result, sent := MakeRequest(a.endpoint, a.verb, a.payload, now, refreshReply, reply);
      outcome := Settle(Created, result);
      if result.Returned? && result.value.Some? {
        flags := SetFlag(flags, page.id, result.value.value.id);
      }
    }

    /** `updateJournalEntry`. */
    method UpdateJournalEntry(page: Page, now: nat, refreshReply: Reply<RawToken>, reply: Reply<NoteReply>)
      returns (outcome: HookOutcome, sent: seq<Request>)
      requires Valid()
      modifies this
      ensures Effect(outcome, sent, token, flags) ==
        HookSpec(Updated, page, Get(old(settings), origin), old(token), old(flags), now, refreshReply, reply)
      ensures Valid()
      ensures settings == old(settings) && stash == old(stash) && listeners == old(listeners)
    {
      var a := Plan(Updated, page, CurrentConfig(), Flag(flags, page.id));
      if a.Skip? {
        return Filtered, [];
      }
      if a.MissingId? {
        return Warned, [];
      }
      var result;
      result, sent := MakeRequest(a.endpoint, a.verb, a.payload, now, refreshReply, reply);
      outcome := Settle(Updated, result);
    }

    /** `deleteJournalEntry`. */
    method DeleteJournalEntry(page: Page, now: nat, refreshReply: Reply<RawToken>, reply: Reply<NoteReply>)
      returns (outcome: HookOutcome, sent: seq<Request>)
      requires Valid()
      modifies this
      ensures Effect(outcome, sent, token, flags) ==
        HookSpec(Deleted, page, Get(old(settings), origin), old(token), old(flags), now, refreshReply, reply)
      ensures Valid()
      ensures settings == old(settings) && stash == old(stash) && listeners == old(listeners)
    {
      var a := Plan(Deleted, page, CurrentConfig(), Flag(flags, page.id));
      if a.Skip? {
        return Filtered, [];
      }
      if a.MissingId? {
        return Warned, [];
      }
      var result;
      result, sent := MakeRequest(a.endpoint, a.verb, a.payload, now, refreshReply, reply);
      outcome := Settle(Deleted, result);
    }
  }
}

=== FILE: oauth.dfy ===
/** The request building and callback checking of `LoreboundOAuth`
    (scripts/module.js:185-293): the authorization request of section
    4.1.1 of RFC 6749 with the PKCE parameters of RFC 7636, the form
    bodies of the `authorization_code` and `refresh_token` grants, the
    form filling loop of `_tokenRequest`, how a token endpoint reply is
    read, and the decision the popup message handler takes. */
module OAuth {
  import opened Common
  import opened Settings
  import opened Tokens
  import opened Http
  import opened Base64
  import opened Pkce

  /** The `source` tag the callback page puts on its message. */
  const MESSAGE_SOURCE := "LoreboundOAuth"
  const FORM_CONTENT_TYPE := "application/x-www-form-urlencoded"

  datatype AuthError =
    | ConfigIncomplete
    | PopupBlocked
    | Denied(reason: string)
    | StateMismatch
    | TokenRequestFailed(status: int)
    | NetworkFailure
    | MalformedResponse

  /** `config.redirectUrl || <default callback page>`. */
  function RedirectUri(config: Config, origin: string): (r: string)
    ensures r != ""
    ensures config.redirectUrl != "" ==> r == config.redirectUrl
    ensures config.redirectUrl == "" ==> r == DefaultRedirect(origin)
  {
    OrElse(Some(config.redirectUrl), DefaultRedirect(origin))
  }

  /** The query of the authorization request, in the order the source
      lists it. */
  function AuthorizeQuery(config: Config, origin: string, state: string, challenge: string): seq<(string, string)> {
    [ ("response_type", "code"),
      ("client_id", config.clientId),
      ("redirect_uri", RedirectUri(config, origin)),
      ("scope", OrElse(config.scope, DEFAULT_SCOPE)),
      ("state", state),
      ("code_challenge", challenge),
      ("code_challenge_method", "S256") ]
  }

  /** Since the configuration never carries a scope, the authorization
      request always asks for `openid profile`, whatever scope is stored
      in the settings; it names the fixed client, and it redirects to the
      stored URL unless that is missing or empty, in which case to the
      module's own callback page. */
  lemma AuthorizeQueryFromSettings(stored: StoredConfig, origin: string, state: string, challenge: string)
    ensures var q := AuthorizeQuery(Get(stored, origin), origin, state, challenge);
      && |q| == 7
      && q[0] == ("response_type", "code")
      && q[1] == ("client_id", CLIENT_ID)
      && q[2] == ("redirect_uri", if Truthy(stored.redirectUrl) then stored.redirectUrl.value else DefaultRedirect(origin))
      && q[3] == ("scope", DEFAULT_SCOPE)
      && q[4] == ("state", state)
      && q[5] == ("code_challenge", challenge)
      && q[6] == ("code_challenge_method", "S256")
  {
  }

  /** The body object handed to `_tokenRequest`, as `Object.entries` lists
      it: keys in insertion order, `None` for a null or undefined value. */
  type Entries = seq<(string, Option<string>)>

  /** The entries `_tokenRequest` puts in the form: those with a value, in
      their order. */
  function Present(body: Entries): seq<(string, string)>
    decreases |body|
  {
    if body == [] then []
    else
      var last := body[|body| - 1];
      Present(body[..|body| - 1]) + Kept(last)
  }

  /** A pair is in the form exactly when the body has that key with that
      value, not null and not undefined. */
  lemma {:induction false} PresentMembership(body: Entries, key: string, value: string)
    ensures (key, value) in Present(body) <==> (key, Some(value)) in body
    decreases |body|
  {
    if body != [] {
      var init := body[..|body| - 1];
      PresentMembership(init, key, value);
      assert body == init + [body[|body| - 1]];
    }
  }

  /** Appending one entry appends it to the form when it has a value. */
  lemma PresentSnoc(body: Entries, e: (string, Option<string>))
    ensures Present(body + [e]) == Present(body) + Kept(e)
  {
    assert (body + [e])[..|body|] == body;
  }

  /** What one entry contributes to the form. */
  function Kept(e: (string, Option<string>)): seq<(string, string)> {
    if e.1.Some? then [(e.0, e.1.value)] else []
  }

  lemma PresentUnfold4(b: Entries)
    requires |b| == 4
    ensures Present(b) == Kept(b[0]) + Kept(b[1]) + Kept(b[2]) + Kept(b[3])
  {
    var b3, b2, b1 := b[..3], b[..2], b[..1];
    PresentLast(b);
    assert b3[..2] == b2 && b3[2] == b[2];
    PresentLast(b3);
    assert b2[..1] == b1 && b2[1] == b[1];
    PresentLast(b2);
    assert b1[..0] == [] && b1[0] == b[0];
    PresentLast(b1);
  }

  /** The form of a non-empty body: that of all but the last entry, then
      what the last one contributes. */
  lemma PresentLast(b: Entries)
    requires b != []
    ensures Present(b) == Present(b[..|b| - 1]) + Kept(b[|b| - 1])
  {
  }

  lemma PresentUnfold5(b: Entries)
    requires |b| == 5
    ensures Present(b) == Kept(b[0]) + Kept(b[1]) + Kept(b[2]) + Kept(b[3]) + Kept(b[4])
  {
    PresentUnfold4(b[..4]);
    assert b[..|b| - 1] == b[..4];
  }

  /** The form of a body that starts with five given entries. */
  lemma PresentFive(e0: (string, Option<string>), e1: (string, Option<string>), e2: (string, Option<string>),
                    e3: (string, Option<string>), e4: (string, Option<string>), tail: Entries)
    ensures Present([e0, e1, e2, e3, e4] + tail)
            == Kept(e0) + Kept(e1) + Kept(e2) + Kept(e3) + Kept(e4) + Present(tail)
  {
    var h := [e0, e1, e2, e3, e4];
    PresentAppend(h, tail);
    PresentUnfold5(h);
  }

  /** Filtering distributes over concatenation, so the form keeps the
      order of the body. */
  lemma {:induction false} PresentAppend(a: Entries, b: Entries)
    ensures Present(a + b) == Present(a) + Present(b)
    decreases |b|
  {
    if b != [] {
      var init := b[..|b| - 1];
      assert (a + b)[..|a + b| - 1] == a + init;
      PresentAppend(a, init);
    } else {
      assert a + b == a;
    }
  }

  /** The keys of an object are pairwise distinct. */
  predicate DistinctKeys(body: Entries) {
    forall i, j | 0 <= i < j < |body| :: body[i].0 != body[j].0
  }

  /** The form filling loop of `_tokenRequest`: every entry whose value is
      null or undefined is skipped, every other one is set. Since the keys
      of the body object are distinct, `params.set` always adds a new pair
      at the end. */
  method TokenForm(body: Entries) returns (params: seq<(string, string)>)
    requires DistinctKeys(body)
    ensures params == Present(body)
    ensures |params| <= |body|
  {
    params := [];
    for i := 0 to |body|
      invariant params == Present(body[..i])
      invariant |params| <= i
    {
      assert body[..i + 1][..i] == body[..i];
      var (key, value) := body[i];
      if value.None? {
        continue;
      }
      params := params + [(key, value.value)];
    }
    assert body[..|body|] == body;
  }

  /** The body `_exchangeCode` builds: the client secret is added only
      when it is non-empty. */
  function ExchangeBody(code: Option<string>, verifier: string, config: Config, origin: string): Entries {
    [ ("grant_type", Some("authorization_code")),
      ("code", code),
      ("redirect_uri", Some(RedirectUri(config, origin))),
      ("client_id", Some(config.clientId)),
      ("code_verifier", Some(verifier)) ]
    + (if config.clientSecret != "" then [("client_secret", Some(config.clientSecret))] else [])
  }

  /** The form the token endpoint receives for a code exchange: the grant
      type, the code when the message carried one, the redirect URI, the
      client id and the verifier, then the secret exactly when one is
      configured. */
  lemma ExchangeForm(code: Option<string>, verifier: string, config: Config, origin: string)
    ensures Present(ExchangeBody(code, verifier, config, origin)) ==
      [("grant_type", "authorization_code")]
      + (if code.Some? then [("code", code.value)] else [])
      + [ ("redirect_uri", RedirectUri(config, origin)),
          ("client_id", config.clientId),
          ("code_verifier", verifier) ]
      + (if config.clientSecret != "" then [("client_secret", config.clientSecret)] else [])
  {
    var e0 := ("grant_type", Some("authorization_code"));
    var e1 := ("code", code);
    var e2 := ("redirect_uri", Some(RedirectUri(config, origin)));
    var e3 := ("client_id", Some(config.clientId));
    var e4 := ("code_verifier", Some(verifier));
    var tail: Entries := if config.clientSecret != "" then [("client_secret", Some(config.clientSecret))] else [];
    assert ExchangeBody(code, verifier, config, origin) == [e0, e1, e2, e3, e4] + tail;
    PresentFive(e0, e1, e2, e3, e4, tail);
    if config.clientSecret != "" {
      PresentSnoc([], tail[0]);
      assert [] + [tail[0]] == tail;
    }
  }

  /** The redirect URI of the exchange is the one the authorization request
      carried, as section 4.1.3 of RFC 6749 requires. */
  lemma RedirectUriAgrees(code: Option<string>, verifier: string, config: Config, origin: string,
                          state: string, challenge: string)
    ensures ("redirect_uri", AuthorizeQuery(config, origin, state, challenge)[2].1)
            in Present(ExchangeBody(code, verifier, config, origin))
  {
    ExchangeForm(code, verifier, config, origin);
  }

  /** The body `refresh` builds; an empty secret becomes `undefined`. */
  function RefreshBody(refreshToken: string, config: Config): Entries {
    [ ("grant_type", Some("refresh_token")),
      ("refresh_token", Some(refreshToken)),
      ("client_id", Some(config.clientId)),
      ("client_secret", if config.clientSecret != "" then Some(config.clientSecret) else None) ]
  }

  /** Both grant bodies are objects with distinct keys, so the form loop
      may be run on them. */
  lemma GrantBodiesHaveDistinctKeys(code: Option<string>, verifier: string, refreshToken: string,
                                    config: Config, origin: string)
    ensures DistinctKeys(ExchangeBody(code, verifier, config, origin))
    ensures DistinctKeys(RefreshBody(refreshToken, config))
  {
  }

  /** The form of a refresh: grant type, refresh token and client id, then
      the secret exactly when one is configured. */
  lemma RefreshForm(refreshToken: string, config: Config)
    ensures Present(RefreshBody(refreshToken, config)) ==
      [ ("grant_type", "refresh_token"),
        ("refresh_token", refreshToken),
        ("client_id", config.clientId) ]
      + (if config.clientSecret != "" then [("client_secret", config.clientSecret)] else [])
  {
    var e := RefreshBody(refreshToken, config);
    PresentUnfold4(e);
  }

  /** The POST `_tokenRequest` sends. */
  function TokenPost(config: Config, form: seq<(string, string)>): Request {
    Request(POST, config.tokenUrl, [("Content-Type", FORM_CONTENT_TYPE)], Form(form))
  }

  /** What `_tokenRequest` yields for a reply: the parsed JSON (`None` for a
      JSON `null`) when the status is 2xx and the body parses, an error
      otherwise. */
  function TokenResult(reply: Reply<RawToken>): (r: Result<Option<RawToken>, AuthError>)
    ensures r.Success? <==> reply.Response? && Ok(reply.status) && !reply.body.Malformed?
    ensures r.Success? ==> (r.value.Some? <==> reply.body.Parsed?)
    ensures r.Success? && r.value.Some? ==> r.value.value == reply.body.value
    ensures reply.Response? && !Ok(reply.status) ==> r == Failure(TokenRequestFailed(reply.status))
  {
    match reply
    case Unreachable => Failure(NetworkFailure)
    case Response(status, body) =>
      if !Ok(status) then Failure(TokenRequestFailed(status))
      else match body
        case Malformed => Failure(MalformedResponse)
        case JsonNull => Success(None)
        case Parsed(t) => Success(Some(t))
  }

  /** Where the promise `authorize` returned stands after a message: still
      pending, or settled with a token (`None` for JSON `null`) or an
      error. */
  datatype AuthOutcome = Pending | Settled(result: Result<Option<RawToken>, AuthError>)

  /** What `authorize` keeps in session storage for the callback. */
  datatype Stash = Stash(verifier: string, state: string, issued: int)

  /** `event.data` of a message event. */
  datatype MessageData = MessageData(
    source: Option<string>,
    code: Option<string>,
    state: Option<string>,
    error: Option<string>,
    errorDescription: Option<string>)

  /** A `message` event: its origin and its data (`None` for falsy data). */
  datatype MessageEvent = MessageEvent(origin: string, data: Option<MessageData>)

  /** The handler acts only on a message from the window's own origin whose
      data carries the module's source tag. */
  predicate Trusted(event: MessageEvent, origin: string) {
    event.origin == origin && event.data.Some? && event.data.value.source == Some(MESSAGE_SOURCE)
  }

  /** What the message handler decides. */
  datatype CallbackStep =
    | Ignore                                        // the listener stays installed
    | Deny(reason: string)                          // an error message: reject, stash untouched
    | Mismatch                                      // stash consumed, then rejected
    | Exchange(code: Option<string>, verifier: string) // stash consumed, code exchanged

  /** Whether a step removes the stash from session storage. */
  predicate ConsumesStash(step: CallbackStep) {
    step.Mismatch? || step.Exchange?
  }

  /** The message handler of `authorize`, given the stash in session
      storage: an untrusted message is ignored; an error message is
      rejected with its description (or its code) and the stash is left
      alone; any other message consumes the stash, and only a stash whose
      state equals the message's state leads to a code exchange, with the
      stashed verifier. */
  function Callback(stash: Option<Stash>, event: MessageEvent, origin: string): (step: CallbackStep)
    ensures step.Ignore? <==> !Trusted(event, origin)
    ensures step.Deny? <==> Trusted(event, origin) && Truthy(event.data.value.error)
    ensures step.Deny? ==> step.reason == OrElse(event.data.value.errorDescription, event.data.value.error.value)
    ensures step.Exchange? <==>
      && Trusted(event, origin) && !Truthy(event.data.value.error)
      && stash.Some? && event.data.value.state == Some(stash.value.state)
    ensures step.Exchange? ==> step.code == event.data.value.code && step.verifier == stash.value.verifier
    ensures ConsumesStash(step) <==> Trusted(event, origin) && !Truthy(event.data.value.error)
  {
    if !Trusted(event, origin) then Ignore
    else
      var data := event.data.value;
      if Truthy(data.error) then Deny(OrElse(data.errorDescription, data.error.value))
      else if stash.None? || data.state != Some(stash.value.state) then Mismatch
      else Exchange(data.code, stash.value.verifier)
  }

  /** The CSRF check: a message whose state differs from the stashed one
      never reaches the token endpoint. */
  lemma ForgedStateNeverExchanged(stash: Stash, event: MessageEvent, origin: string)
    requires event.data.Some? && event.data.value.state != Some(stash.state)
    ensures !Callback(Some(stash), event, origin).Exchange?
  {
  }

  /** `_assertConfig`: the client id and both OAuth endpoints must be
      non-empty. */
  function AssertConfig(config: Config): (r: Result<Config, AuthError>)
    ensures r.Success? <==> Complete(config)
    ensures r.Success? ==> r.value == config
    ensures r.Failure? ==> r.error == ConfigIncomplete
  {
    if config.clientId == "" || config.authorizeUrl == "" || config.tokenUrl == "" then Failure(ConfigIncomplete)
    else Success(config)
  }

  /** What `authorize` hands to `window.open` and what it stashes. */
  datatype Launch = Launch(authorizeUrl: string, query: seq<(string, string)>, stash: Stash)

  /** `authorize` up to the popup: check the configuration, draw the
      verifier and the state from the random bytes, derive the challenge,
      build the query and the stash issued at `now`. */
  function Prepare(config: Config, origin: string, now: int, sha256: seq<byte> -> Digest,
                   verifierBytes: seq<byte>, stateBytes: seq<byte>): (r: Result<Launch, AuthError>)
    requires |verifierBytes| == VERIFIER_LENGTH && |stateBytes| == STATE_LENGTH
    ensures r.Failure? <==> !Complete(config)
    ensures r.Failure? ==> r.error == ConfigIncomplete
    ensures r.Success? ==>
      var l := r.value;
      && l.authorizeUrl == config.authorizeUrl
      && l.stash == Stash(RandomString(verifierBytes), RandomString(stateBytes), now)
      && ValidVerifier(l.stash.verifier) && |l.stash.state| == STATE_LENGTH
      && l.query == AuthorizeQuery(config, origin, l.stash.state, Challenge(l.stash.verifier, sha256))
  {
    match AssertConfig(config)
    case Failure(e) => Failure(e)
    case Success(_) =>
      var verifier := RandomString(verifierBytes);
      var challenge := Challenge(verifier, sha256);
      var state := RandomString(stateBytes);
      GeneratedSecretsAreValid(verifierBytes, stateBytes);
      Success(Launch(config.authorizeUrl, AuthorizeQuery(config, origin, state, challenge),
                     Stash(verifier, state, now)))
  }

  /** The PKCE binding of RFC 7636: when the callback that follows a launch
      leads to an exchange, the state it carried is the one sent, and the
      verifier sent to the token endpoint is the one whose S256 challenge
      went out with the authorization request; the digest can be read back
      from that challenge. */
  lemma PkceBinding(config: Config, origin: string, now: int, sha256: seq<byte> -> Digest,
                    verifierBytes: seq<byte>, stateBytes: seq<byte>, event: MessageEvent)
    requires |verifierBytes| == VERIFIER_LENGTH && |stateBytes| == STATE_LENGTH
    requires Prepare(config, origin, now, sha256, verifierBytes, stateBytes).Success?
    ensures var l := Prepare(config, origin, now, sha256, verifierBytes, stateBytes).value;
      var step := Callback(Some(l.stash), event, origin);
      step.Exchange? ==>
        && event.data.value.state == Some(l.query[4].1)
        && ("code_verifier", step.verifier) in Present(ExchangeBody(step.code, step.verifier, config, origin))
        && l.query[5] == ("code_challenge", Challenge(step.verifier, sha256))
        && UrlDecode(l.query[5].1) == sha256(Utf8(step.verifier))
  {
    var l := Prepare(config, origin, now, sha256, verifierBytes, stateBytes).value;
    var step := Callback(Some(l.stash), event, origin);
    if step.Exchange? {
      ExchangeForm(step.code, step.verifier, config, origin);
      ChallengeDeterminesDigest(step.verifier, sha256);
    }
  }

  /** What `refresh` resolves to once its request settled: the parsed
      token, and `null` for every failure, which it catches. */
  function Refreshed(reply: Reply<RawToken>): (r: Option<RawToken>)
    ensures r.Some? <==> reply.Response? && Ok(reply.status) && reply.body.Parsed?
    ensures r.Some? ==> r.value == reply.body.value
  {
    match TokenResult(reply)
    case Success(t) => t
    case Failure(_) => None
  }
}

=== FILE: pkce.dfy ===
/** The PKCE helpers of `LoreboundOAuth` (scripts/module.js:295-311):
    the random strings used for the code verifier and the state, and the
    S256 code challenge of section 4.2 of RFC 7636. The random bytes
    `crypto.getRandomValues` fills in are inputs, and SHA-256 is a
    parameter that returns 32 bytes. */
module Pkce {
  import opened Common
  import opened Base64

  const VERIFIER_LENGTH := 96
  const STATE_LENGTH := 24

  /** A SHA-256 digest. */
  type Digest = d: seq<byte> | |d| == 32 witness seq(32, k => 0)

  predicate IsBase36Char(c: char) {
    ('0' <= c <= '9') || ('a' <= c <= 'z')
  }

  /** `d.toString(36)` for a single base-36 digit. */
  function Base36Digit(d: int): (c: char)
    requires 0 <= d < 36
    ensures IsBase36Char(c)
  {
    if d < 10 then ('0' as int + d) as char else ('a' as int + (d - 10)) as char
  }

  /** The digit a base-36 character stands for. */
  function Base36Value(c: char): (d: int)
    requires IsBase36Char(c)
    ensures 0 <= d < 36 && Base36Digit(d) == c
  {
    if c <= '9' then c as int - '0' as int else c as int - 'a' as int + 10
  }

  /** `_randomString(length)` applied to the `length` bytes the random
      source produced: one character per byte, the byte's residue modulo
      36 written as a base-36 digit. */
  function RandomString(random: seq<byte>): (s: string)
    ensures |s| == |random|
    ensures forall k | 0 <= k < |s| :: IsBase36Char(s[k]) && Base36Value(s[k]) == random[k] % 36
  {
    seq(|random|, k requires 0 <= k < |random| => Base36Digit(random[k] % 36))
  }

  /** The unreserved characters a code verifier may use (section 4.1 of
      RFC 7636). */
  predicate IsUnreserved(c: char) {
    ('A' <= c <= 'Z') || ('a' <= c <= 'z') || ('0' <= c <= '9')
    || c == '-' || c == '.' || c == '_' || c == '~'
  }

  /** A code verifier as section 4.1 of RFC 7636 requires it: 43 to 128
      unreserved characters. */
  predicate ValidVerifier(v: string) {
    43 <= |v| <= 128 && forall k | 0 <= k < |v| :: IsUnreserved(v[k])
  }

  /** The 96-character verifier `authorize` draws is a valid RFC 7636
      code verifier, and the 24-character state uses the same alphabet. */
  lemma GeneratedSecretsAreValid(verifierBytes: seq<byte>, stateBytes: seq<byte>)
    requires |verifierBytes| == VERIFIER_LENGTH && |stateBytes| == STATE_LENGTH
    ensures ValidVerifier(RandomString(verifierBytes))
    ensures |RandomString(stateBytes)| == STATE_LENGTH
    ensures forall k | 0 <= k < STATE_LENGTH :: IsUnreserved(RandomString(stateBytes)[k])
  {
    var v := RandomString(verifierBytes);
    assert forall k | 0 <= k < |v| :: IsBase36Char(v[k]);
  }

  /** `new TextEncoder().encode(s)`: the UTF-8 encoding of the string. */
  function Utf8(s: string): (b: seq<byte>)
    ensures (forall k | 0 <= k < |s| :: s[k] as int < 128) ==> |b| == |s|
    decreases |s|
  {
    if s == [] then []
    else
      var cp := s[0] as int;
      var head: seq<byte> :=
        if cp < 0x80 then [cp]
        else if cp < 0x800 then [0xC0 + cp / 64, 0x80 + cp % 64]
        else if cp < 0x10000 then [0xE0 + cp / 4096, 0x80 + (cp / 64) % 64, 0x80 + cp % 64]
        else [0xF0 + cp / 262144, 0x80 + (cp / 4096) % 64, 0x80 + (cp / 64) % 64, 0x80 + cp % 64];
      head + Utf8(s[1..])
  }

  /** `_pkceChallenge`: BASE64URL(SHA256(verifier)). For the S256 method
      of section 4.2 of RFC 7636 this is always 43 characters of the
      base64url alphabet, without padding. */
  function Challenge(verifier: string, sha256: seq<byte> -> Digest): (c: string)
    ensures c == UrlEncode(sha256(Utf8(verifier)))
    ensures |c| == 43
    ensures forall k | 0 <= k < |c| :: IsUrlChar(c[k]) && c[k] != '='
  {
    Base64UrlEncode(sha256(Utf8(verifier)))
  }

  /** The challenge keeps the whole digest: the digest can be decoded back
      from it. */
  lemma ChallengeDeterminesDigest(verifier: string, sha256: seq<byte> -> Digest)
    ensures var c := Challenge(verifier, sha256);
      DecodableLength(|c|) && UrlDecode(c) == sha256(Utf8(verifier))
  {
    UrlRoundTrip(sha256(Utf8(verifier)));
  }

  /** The verifier `authorize` sends at exchange time is never the
      challenge it sent with the authorization request. */
  lemma VerifierIsNotChallenge(verifierBytes: seq<byte>, sha256: seq<byte> -> Digest)
    requires |verifierBytes| == VERIFIER_LENGTH
    ensures RandomString(verifierBytes) != Challenge(RandomString(verifierBytes), sha256)
  {
  }
}

=== FILE: settings.dfy ===
/** `LoreboundConfig` (scripts/module.js:120-139), the registered default
    of the `oauthConfig` world setting (scripts/module.js:27-39) and the
    allow-list normalisation of `LoreboundSync.config`
    (scripts/module.js:321-327). */
module Settings {
  import opened Common
  import opened Text

  const MODULE_ID := "Lorebound"
  const CLIENT_ID := "foundry_app"
  const AUTHORIZE_URL := "https://auth.niclee.dev/authorize"
  const TOKEN_URL := "https://auth.niclee.dev/token"
  const API_BASE_URL := "https://apilorebound.niclee.dev/api"
  const DEFAULT_SCOPE := "openid profile"

  /** The callback page served by the module under the window's origin. */
  function DefaultRedirect(origin: string): string {
    origin + "/modules/" + MODULE_ID + "/oauth-callback.html"
  }

  /** The allow-list setting holds either an array of journal names or one
      comma-separated string. */
  datatype AllowValue = Names(names: seq<string>) | Listing(text: string)

  /** The object stored under the `oauthConfig` setting. A stored `null`
      reads exactly like an object whose fields are all absent, so it is
      not a separate case. */
  datatype StoredConfig = StoredConfig(
    clientSecret: Option<string>,
    worldId: Option<string>,
    redirectUrl: Option<string>,
    allowedJournals: Option<AllowValue>,
    scope: Option<string>)

  /** What `LoreboundConfig.get` returns. `scope` is a property the
      returned object never has; it is kept so that the authorization
      request can read it as the source does. */
  datatype Config = Config(
    clientId: string,
    clientSecret: string,
    worldId: string,
    authorizeUrl: string,
    tokenUrl: string,
    apiBaseUrl: string,
    redirectUrl: string,
    allowedJournals: Option<AllowValue>,
    scope: Option<string>)

  /** The default the setting is registered with. */
  function DefaultSettings(origin: string): StoredConfig {
    StoredConfig(Some(""), None, Some(DefaultRedirect(origin)), None, Some(DEFAULT_SCOPE))
  }

  /** `LoreboundConfig.get`: the client id and all three endpoints are fixed,
      the other fields come from the stored object with defaults for the
      nullish ones, and no scope is ever returned. */
  function Get(stored: StoredConfig, origin: string): (c: Config)
    ensures c.clientId == CLIENT_ID && c.authorizeUrl == AUTHORIZE_URL
    ensures c.tokenUrl == TOKEN_URL && c.apiBaseUrl == API_BASE_URL
    ensures c.scope.None?
    ensures stored.redirectUrl.None? ==> c.redirectUrl == DefaultRedirect(origin)
    ensures stored.clientSecret.None? ==> c.clientSecret == ""
  {
    Config(
      CLIENT_ID,
      Nullish(stored.clientSecret, ""),
      Nullish(stored.worldId, ""),
      AUTHORIZE_URL,
      TOKEN_URL,
      API_BASE_URL,
      Nullish(stored.redirectUrl, DefaultRedirect(origin)),
      stored.allowedJournals,
      None)
  }

  /** One property of the object passed to `LoreboundConfig.set`: absent,
      or present with a (possibly nullish) value. */
  datatype Field<T> = Keep | Put(v: Option<T>)

  datatype ConfigPatch = ConfigPatch(
    clientSecret: Field<string>,
    worldId: Field<string>,
    redirectUrl: Field<string>,
    allowedJournals: Field<AllowValue>,
    scope: Field<string>)

  function Override<T>(f: Field<T>, current: Option<T>): Option<T> {
    match f
    case Keep => current
    case Put(v) => v
  }

  /** `{ ...LoreboundConfig.get(), ...patch }`, the object `set` stores. The
      fixed fields are stored too, but `Get` never reads them back. */
  function Merge(stored: StoredConfig, patch: ConfigPatch, origin: string): StoredConfig {
    var current := Get(stored, origin);
    StoredConfig(
      Override(patch.clientSecret, Some(current.clientSecret)),
      Override(patch.worldId, Some(current.worldId)),
      Override(patch.redirectUrl, Some(current.redirectUrl)),
      Override(patch.allowedJournals, current.allowedJournals),
      Override(patch.scope, None))
  }

  /** What `Get` returns after `set(patch)`: a field the patch leaves out
      keeps the value `Get` returned before, a field the patch sets to a
      value takes that value, and a field it sets to null falls back to
      its default. Merging an empty patch changes nothing `Get` can see. */
  lemma MergeThenGet(stored: StoredConfig, patch: ConfigPatch, origin: string)
    ensures var before, after := Get(stored, origin), Get(Merge(stored, patch, origin), origin);
      && (patch.clientSecret.Keep? ==> after.clientSecret == before.clientSecret)
      && (patch.clientSecret == Put(None) ==> after.clientSecret == "")
      && (patch.clientSecret.Put? && patch.clientSecret.v.Some? ==> after.clientSecret == patch.clientSecret.v.value)
      && (patch.worldId.Keep? ==> after.worldId == before.worldId)
      && (patch.worldId == Put(None) ==> after.worldId == "")
      && (patch.worldId.Put? && patch.worldId.v.Some? ==> after.worldId == patch.worldId.v.value)
      && (patch.redirectUrl.Keep? ==> after.redirectUrl == before.redirectUrl)
      && (patch.redirectUrl == Put(None) ==> after.redirectUrl == DefaultRedirect(origin))
      && (patch.redirectUrl.Put? && patch.redirectUrl.v.Some? ==> after.redirectUrl == patch.redirectUrl.v.value)
      && (patch.allowedJournals.Keep? ==> after.allowedJournals == before.allowedJournals)
      && (patch.allowedJournals.Put? ==> after.allowedJournals == patch.allowedJournals.v)
      && after.scope.None?
    ensures patch == ConfigPatch(Keep, Keep, Keep, Keep, Keep) ==>
      Get(Merge(stored, patch, origin), origin) == Get(stored, origin)
  {
  }

  /** `_assertConfig` accepts a configuration only when the client id and
      both OAuth endpoints are non-empty. */
  predicate Complete(c: Config) {
    c.clientId != "" && c.authorizeUrl != "" && c.tokenUrl != ""
  }

  /** Because the three values are constants, `_assertConfig` never fails
      on what `Get` returns, whatever is stored. */
  lemma GetIsComplete(stored: StoredConfig, origin: string)
    ensures Complete(Get(stored, origin))
  {
  }

  /** The allow-list as `LoreboundSync.config` leaves it, reduced to the
      question the handlers ask of it: `None` when no filter applies (the
      setting is nullish or the empty string, both falsy), otherwise the
      names a journal must be among. A string is split on commas and each
      piece trimmed; an array is used as it is, so an empty array admits
      nothing. */
  function AllowedJournals(v: Option<AllowValue>): (r: Option<seq<string>>)
    ensures (v.None? || v == Some(Listing(""))) <==> r.None?
    ensures v.Some? && v.value.Names? ==> r == Some(v.value.names)
    ensures v.Some? && v.value.Listing? && v.value.text != "" ==>
      && |r.value| == |Split(v.value.text, ',')| == Count(v.value.text, ',') + 1
      && (forall i | 0 <= i < |r.value| :: r.value[i] == Trim(Split(v.value.text, ',')[i]))
      && forall n | n in r.value :: ',' !in n && Trim(n) == n
  {
    match v
    case None => None
    case Some(Names(names)) => Some(names)
    case Some(Listing(text)) =>
      if text == "" then None
      else
        var parts := Split(text, ',');
        var names := TrimAll(parts);
        assert forall n | n in names :: ',' !in n by {
          forall n | n in names ensures ',' !in n {
            var i :| 0 <= i < |names| && names[i] == n;
            assert parts[i] in parts;
          }
        }
        Some(names)
  }

  /** `.map(s => s.trim())`. */
  function TrimAll(parts: seq<string>): (names: seq<string>)
    ensures |names| == |parts|
    ensures forall i | 0 <= i < |parts| :: names[i] == Trim(parts[i])
    ensures forall n | n in names :: Trim(n) == n
    ensures forall i | 0 <= i < |parts| :: ',' !in parts[i] ==> ',' !in names[i]
  {
    var names := seq(|parts|, i requires 0 <= i < |parts| => Trim(parts[i]));
    forall i | 0 <= i < |parts|
      ensures Trim(names[i]) == names[i]
      ensures ',' !in parts[i] ==> ',' !in names[i]
    {
      TrimmedPiece(parts[i]);
    }
    names
  }

  /** A trimmed piece of a split keeps no separator and is its own trim. */
  lemma TrimmedPiece(p: string)
    ensures ',' !in p ==> ',' !in Trim(p)
    ensures Trim(Trim(p)) == Trim(p)
  {
    var i, j := TrimSlice(p);
    if ',' in Trim(p) {
      var k :| 0 <= k < |Trim(p)| && Trim(p)[k] == ',';
      assert p[i + k] == ',';
    }
    TrimIdempotent(p);
  }

  /** Whether the handlers go on for a journal page whose parent journal
      has this name. */
  predicate Admits(allowed: Option<seq<string>>, name: string) {
    allowed.None? || name in allowed.value
  }

  /** A non-empty listing admits a journal exactly when its name is one of
      the trimmed pieces. */
  lemma ListingAdmits(text: string, name: string)
    requires text != ""
    ensures !Admits(AllowedJournals(Some(Listing(text))), name) <==>
      forall i | 0 <= i < |Split(text, ',')| :: Trim(Split(text, ',')[i]) != name
  {
    var parts := Split(text, ',');
    ListingIsTrimmedSplit(text);
    var names := TrimAll(parts);
    assert Admits(AllowedJournals(Some(Listing(text))), name) <==> name in names;
    if name in names {
      var i :| 0 <= i < |names| && names[i] == name;
      assert Trim(parts[i]) == name;
    } else {
      forall i | 0 <= i < |parts| ensures Trim(parts[i]) != name {
        assert names[i] in names;
      }
    }
  }

  /** Writing comma-free names as a comma-separated string filters by the
      names with the blanks around them cut off; names that carry no such
      blanks come back exactly. */
  lemma {:induction false} ListingRoundTrip(names: seq<string>)
    requires |names| >= 1 && Join(names, ',') != ""
    requires forall n | n in names :: ',' !in n
    ensures AllowedJournals(Some(Listing(Join(names, ',')))) == Some(TrimAll(names))
    ensures (forall n | n in names :: Trim(n) == n) ==>
      AllowedJournals(Some(Listing(Join(names, ',')))) == Some(names)
  {
    var text := Join(names, ',');
    SplitJoin(names, ',');
    ListingIsTrimmedSplit(text);
    var trimmed := TrimAll(names);
    if forall n | n in names :: Trim(n) == n {
      assert trimmed == names by {
        forall i | 0 <= i < |names| ensures trimmed[i] == names[i] {
          assert names[i] in names;
        }
      }
    }
  }

  /** A non-empty listing stands for its trimmed comma-separated pieces. */
  lemma ListingIsTrimmedSplit(text: string)
    requires text != ""
    ensures AllowedJournals(Some(Listing(text))) == Some(TrimAll(Split(text, ',')))
  {
  }

  /** Each name with the white space that goes before and after it. */
  function Padded(names: seq<string>, before: seq<string>, after: seq<string>): (padded: seq<string>)
    requires |before| == |names| && |after| == |names|
    ensures |padded| == |names|
    ensures forall i | 0 <= i < |names| :: padded[i] == before[i] + names[i] + after[i]
  {
    seq(|names|, i requires 0 <= i < |names| => before[i] + names[i] + after[i])
  }

  /** Blanks around the names of a listing do not count: writing each
      name with white space before and after it, as in "Lore, Other",
      filters exactly as listing the bare names would. */
  lemma BlanksAroundNames(names: seq<string>, before: seq<string>, after: seq<string>)
    requires |names| >= 1 && |before| == |names| && |after| == |names|
    requires forall n | n in names :: ',' !in n && Trim(n) == n
    requires forall i | 0 <= i < |names| :: AllSpace(before[i]) && AllSpace(after[i])
    ensures Join(Padded(names, before, after), ',') != "" ==>
      AllowedJournals(Some(Listing(Join(Padded(names, before, after), ',')))) == Some(names)
  {
    var padded := Padded(names, before, after);
    PaddedCommaFree(names, before, after);
    if Join(padded, ',') != "" {
      ListingRoundTrip(padded);
      PaddedTrims(names, before, after);
    }
  }

  /** White space adds no comma to a name. */
  lemma PaddedCommaFree(names: seq<string>, before: seq<string>, after: seq<string>)
    requires |before| == |names| && |after| == |names|
    requires forall n | n in names :: ',' !in n
    requires forall i | 0 <= i < |names| :: AllSpace(before[i]) && AllSpace(after[i])
    ensures forall q | q in Padded(names, before, after) :: ',' !in q
  {
    var padded := Padded(names, before, after);
    forall i | 0 <= i < |padded| ensures ',' !in padded[i] {
      assert names[i] in names;
      SpaceHasNoComma(before[i]);
      SpaceHasNoComma(after[i]);
      assert padded[i] == before[i] + names[i] + after[i];
    }
  }

  lemma SpaceHasNoComma(s: string)
    requires AllSpace(s)
    ensures ',' !in s
  {
    forall k | 0 <= k < |s| ensures s[k] != ',' {
      assert IsSpace(s[k]);
    }
  }

  /** Trimming each padded name gives the bare name back. */
  lemma PaddedTrims(names: seq<string>, before: seq<string>, after: seq<string>)
    requires |before| == |names| && |after| == |names|
    requires forall n | n in names :: Trim(n) == n
    requires forall i | 0 <= i < |names| :: AllSpace(before[i]) && AllSpace(after[i])
    ensures TrimAll(Padded(names, before, after)) == names
  {
    var padded := Padded(names, before, after);
    forall i | 0 <= i < |names| ensures Trim(padded[i]) == names[i] {
      assert names[i] in names;
      assert Trim(names[i]) == names[i];
      TrimPadded(before[i], names[i], after[i]);
    }
    var trimmed := TrimAll(padded);
    assert forall i | 0 <= i < |names| :: trimmed[i] == names[i];
  }
}

=== FILE: sync.dfy ===
/** The decisions of `LoreboundSync` (scripts/module.js:313-405): which
    journal pages reach the notes API, with which verb and path, what the
    request carries, and how the outcome of a request is read back. */
module Sync {
  import opened Common
  import opened Text
  import opened Settings
  import opened Tokens
  import opened Http

  const NOTES_PATH := "/notes"
  const NOTE_PATH_PREFIX := "/notes/"
  /** What a page without text content is sent with. */
  const PLACEHOLDER_CONTENT := "Content"
  const JSON_CONTENT_TYPE := "application/json"
  const DEFAULT_TOKEN_TYPE := "Bearer"

  /** A journal page document, reduced to what the handlers read. */
  type DocId = string
  datatype Page = Page(id: DocId, name: Option<string>, parentName: string, content: Option<string>)

  /** The three document hooks the module listens to. */
  datatype Hook = Created | Updated | Deleted

  /** What a handler does before any request is made. */
  datatype Action =
    | Skip                                                   // the parent journal is not allowed
    | MissingId                                              // no `externalId` flag: warn and stop
    | Dispatch(verb: Verb, endpoint: string, payload: Option<NotePayload>)

  /** The payload a page is sent with: its name, its text (or a placeholder
      when the text is empty or missing), and the world id on creation. */
  function PagePayload(page: Page, worldId: Option<string>): (p: NotePayload)
    ensures p.title == page.name && p.worldId == worldId
    ensures p.content != ""
    ensures Truthy(page.content) ==> p.content == page.content.value
    ensures !Truthy(page.content) ==> p.content == PLACEHOLDER_CONTENT
  {
    NotePayload(page.name, OrElse(page.content, PLACEHOLDER_CONTENT), worldId)
  }

  /** The decision of `createJournalEntry`, `updateJournalEntry` or
      `deleteJournalEntry` for a page whose `externalId` flag is `flag`: a
      page outside the allow-list is skipped by all three; creation always
      posts to `/notes` with the world id; update and delete need a
      non-empty flag and address `/notes/<flag>`, the update carrying the
      payload without world id and the delete carrying nothing. */
  function Plan(hook: Hook, page: Page, config: Config, flag: Option<string>): (a: Action)
    ensures a.Skip? <==> !Admits(AllowedJournals(config.allowedJournals), page.parentName)
    ensures a.MissingId? <==>
      Admits(AllowedJournals(config.allowedJournals), page.parentName) && hook != Created && !Truthy(flag)
    ensures a.Dispatch? ==>
      && (a.verb == POST <==> hook == Created)
      && (a.verb == PUT <==> hook == Updated)
      && (a.payload.None? <==> hook == Deleted)
    ensures a.Dispatch? && hook == Created ==>
      a.endpoint == NOTES_PATH && a.payload == Some(PagePayload(page, Some(config.worldId)))
    ensures a.Dispatch? && hook != Created ==>
      && Truthy(flag)
      && a.endpoint == NOTE_PATH_PREFIX + flag.value
      && (hook == Updated ==> a.payload == Some(PagePayload(page, None)))
  {
    if !Admits(AllowedJournals(config.allowedJournals), page.parentName) then Skip
    else match hook
      case Created => Dispatch(POST, NOTES_PATH, Some(PagePayload(page, Some(config.worldId))))
      case Updated =>
        if !Truthy(flag) then MissingId
        else Dispatch(PUT, NOTE_PATH_PREFIX + flag.value, Some(PagePayload(page, None)))
      case Deleted =>
        if !Truthy(flag) then MissingId
        else Dispatch(DELETE, NOTE_PATH_PREFIX + flag.value, None)
  }

  /** The path of an update or delete names the note: the flag can be read
      back from it, so two pages with different flags never address the
      same note. */
  lemma EndpointNamesNote(hook: Hook, page: Page, config: Config, flag: Option<string>,
                          other: Page, otherFlag: Option<string>)
    requires hook != Created
    requires Plan(hook, page, config, flag).Dispatch? && Plan(hook, other, config, otherFlag).Dispatch?
    ensures Plan(hook, page, config, flag).endpoint[|NOTE_PATH_PREFIX|..] == flag.value
    ensures Plan(hook, page, config, flag).endpoint == Plan(hook, other, config, otherFlag).endpoint
            <==> flag == otherFlag
  {
    var e1, e2 := Plan(hook, page, config, flag).endpoint, Plan(hook, other, config, otherFlag).endpoint;
    assert e1[|NOTE_PATH_PREFIX|..] == flag.value;
    assert e2[|NOTE_PATH_PREFIX|..] == otherFlag.value;
  }

  /** Under a comma-separated allow-list, each of the three hooks skips a
      page exactly when the name of its journal is none of the trimmed
      pieces of the list, so blanks around the names do not matter. */
  lemma UnlistedJournalIgnored(text: string, hook: Hook, page: Page, config: Config, flag: Option<string>)
    requires text != "" && config.allowedJournals == Some(Listing(text))
    ensures Plan(hook, page, config, flag) == Skip <==>
      forall i | 0 <= i < |Split(text, ',')| :: Trim(Split(text, ',')[i]) != page.parentName
  {
    ListingAdmits(text, page.parentName);
    assert Plan(hook, page, config, flag).Skip? <==> Plan(hook, page, config, flag) == Skip;
  }

  /** `${token.token_type || "Bearer"} ${token.access_token}`. */
  function AuthorizationHeader(token: RawToken): string {
    OrElse(token.tokenType, DEFAULT_TOKEN_TYPE) + " " + Render(token.accessToken)
  }

  /** The header is a scheme and a credential separated by one blank: the
      token's own type when it has one, `Bearer` otherwise. When neither
      part contains a blank, splitting the header on the blank gives them
      back. */
  lemma AuthorizationHeaderParts(token: RawToken)
    ensures var scheme := OrElse(token.tokenType, DEFAULT_TOKEN_TYPE);
      && AuthorizationHeader(token) == Join([scheme, Render(token.accessToken)], ' ')
      && (!Truthy(token.tokenType) ==> AuthorizationHeader(token)[..7] == "Bearer ")
      && (' ' !in scheme && ' ' !in Render(token.accessToken) ==>
            Split(AuthorizationHeader(token), ' ') == [scheme, Render(token.accessToken)])
  {
    var parts := [OrElse(token.tokenType, DEFAULT_TOKEN_TYPE), Render(token.accessToken)];
    assert Join(parts, ' ') == parts[0] + [' '] + Join(parts[1..], ' ');
    if ' ' !in parts[0] && ' ' !in parts[1] {
      SplitJoin(parts, ' ');
    }
  }

  /** The request `makeRequest` sends once it has a token: JSON to the API
      base URL followed by the endpoint, with the token in the
      Authorization header. `JSON.stringify(undefined)` is no body at all. */
  function ApiRequest(config: Config, endpoint: string, verb: Verb, token: RawToken,
                      payload: Option<NotePayload>): (r: Request)
    ensures r.verb == verb
    ensures |r.url| == |config.apiBaseUrl| + |endpoint|
    ensures r.url[..|config.apiBaseUrl|] == config.apiBaseUrl && r.url[|config.apiBaseUrl|..] == endpoint
    ensures ("Authorization", AuthorizationHeader(token)) in r.headers
    ensures ("Content-Type", JSON_CONTENT_TYPE) in r.headers
    ensures r.headers == [("Content-Type", JSON_CONTENT_TYPE), ("Authorization", AuthorizationHeader(token))]
    ensures r.body.NoBody? <==> payload.None?
    ensures payload.Some? ==> r.body == Json(payload.value)
  {
    Request(verb, config.apiBaseUrl + endpoint,
            [("Content-Type", JSON_CONTENT_TYPE), ("Authorization", AuthorizationHeader(token))],
            if payload.Some? then Json(payload.value) else NoBody)
  }

  /** The reply of the notes API, reduced to the `_id` it may carry. */
  datatype NoteReply = NoteReply(id: Option<string>)

  /** What the promise `makeRequest` returns settles to. */
  datatype ApiResult =
    | NoToken                          // resolved to undefined: no usable token
    | HttpError(status: int)           // resolved to undefined after the FetchError notification
    | Thrown                           // rejected: fetch failed or the body is not JSON
    | Returned(value: Option<NoteReply>) // resolved to the parsed body (`None` for JSON null)

  /** How `makeRequest` reads the reply to the request it sent. */
  function ReadReply(reply: Reply<NoteReply>): (r: ApiResult)
    ensures r.HttpError? <==> reply.Response? && !Ok(reply.status)
    ensures r.HttpError? ==> r.status == reply.status
    ensures r.Thrown? <==> reply.Unreachable? || (reply.Response? && Ok(reply.status) && reply.body.Malformed?)
    ensures r.Returned? ==> (r.value.Some? <==> reply.body.Parsed?)
    ensures r.Returned? && r.value.Some? ==> r.value.value == reply.body.value
    ensures !r.NoToken?
  {
    match reply
    case Unreachable => Thrown
    case Response(status, body) =>
      if !Ok(status) then HttpError(status)
      else match body
        case Malformed => Thrown
        case JsonNull => Returned(None)
        case Parsed(n) => Returned(Some(n))
  }

  /** What a hook handler's promise settles to. */
  datatype HookOutcome =
    | Filtered        // the allow-list turned the page away
    | Warned          // no `externalId` flag: a console warning, no request
    | Completed
    | TypeError       // `response._id` read on undefined or null
    | Rejected        // a rejection of `makeRequest` propagated

  /** How a handler ends once its request settled: creation needs an object
      to read `_id` from, update and delete ignore what they get back. */
  function Settle(hook: Hook, result: ApiResult): (o: HookOutcome)
    ensures o == Rejected <==> result.Thrown?
    ensures o == TypeError <==>
      hook == Created && (result.NoToken? || result.HttpError? || result == Returned(None))
    ensures o in {Completed, TypeError, Rejected}
    ensures hook == Created ==> (o == Completed <==> result.Returned? && result.value.Some?)
    ensures hook != Created ==> (o == Completed <==> !result.Thrown?)
  {
    if result.Thrown? then Rejected
    else if hook == Created && !(result.Returned? && result.value.Some?) then TypeError
    else Completed
  }
}

=== FILE: text.dfy ===
/** The two string operations the allow-list setting goes through:
    `String.prototype.split` with a one-character separator and
    `String.prototype.trim`. */
module Text {

  /** The characters `trim` removes: ECMAScript WhiteSpace (the Unicode
      Zs category plus tab, vertical tab, form feed and the byte order
      mark) and LineTerminator. */
  predicate IsSpace(c: char) {
    || c == '\t' || c == '\n' || c == '\U{000B}' || c == '\U{000C}' || c == '\r'
    || c == ' ' || c == '\U{00A0}' || c == '\U{1680}'
    || ('\U{2000}' <= c <= '\U{200A}')
    || c == '\U{2028}' || c == '\U{2029}' || c == '\U{202F}' || c == '\U{205F}'
    || c == '\U{3000}' || c == '\U{FEFF}'
  }

  predicate AllSpace(s: string) {
    forall k | 0 <= k < |s| :: IsSpace(s[k])
  }

  /** The number of white space characters `s` starts with. */
  function LeadingSpace(s: string): (n: nat)
    ensures n <= |s|
    ensures forall k | 0 <= k < n :: IsSpace(s[k])
    ensures n == |s| || !IsSpace(s[n])
    decreases |s|
  {
    if |s| > 0 && IsSpace(s[0]) then 1 + LeadingSpace(s[1..]) else 0
  }

  /** The number of white space characters `s` ends with. */
  function TrailingSpace(s: string): (n: nat)
    ensures n <= |s|
    ensures forall k | |s| - n <= k < |s| :: IsSpace(s[k])
    ensures n == |s| || !IsSpace(s[|s| - n - 1])
    decreases |s|
  {
    if |s| > 0 && IsSpace(s[|s| - 1]) then 1 + TrailingSpace(s[..|s| - 1]) else 0
  }

  /** Leading white space removed: what is left is a suffix of `s` that does
      not start with white space, and everything cut off was white space. */
  function TrimStart(s: string): (r: string)
    ensures |r| <= |s| && r == s[|s| - |r|..]
    ensures AllSpace(s[..|s| - |r|])
    ensures r == [] || !IsSpace(r[0])
  {
    s[LeadingSpace(s)..]
  }

  /** Trailing white space removed: a prefix of `s` that does not end with
      white space, and everything cut off was white space. */
  function TrimEnd(s: string): (r: string)
    ensures |r| <= |s| && r == s[..|r|]
    ensures AllSpace(s[|r|..])
    ensures r == [] || !IsSpace(r[|r| - 1])
  {
    s[..|s| - TrailingSpace(s)]
  }

  /** `s.trim()`. */
  function Trim(s: string): (r: string)
    ensures r == [] || (!IsSpace(r[0]) && !IsSpace(r[|r| - 1]))
    ensures |r| <= |s|
  {
    TrimEnd(TrimStart(s))
  }

  /** Trimming keeps one contiguous piece of the input and throws away only
      white space on either side of it. */
  lemma TrimSlice(s: string) returns (i: nat, j: nat)
    ensures i <= j <= |s| && Trim(s) == s[i..j]
    ensures AllSpace(s[..i]) && AllSpace(s[j..])
  {
    var t := TrimStart(s);
    var r := TrimEnd(t);
    i := |s| - |t|;
    j := i + |r|;
    SliceOfSuffix(s, t, r);
  }

  /** A prefix of a suffix is a slice, and what follows it in the suffix
      is the rest of the string. */
  lemma SliceOfSuffix(s: string, t: string, r: string)
    requires |t| <= |s| && t == s[|s| - |t|..]
    requires |r| <= |t| && r == t[..|r|]
    ensures r == s[|s| - |t|..|s| - |t| + |r|]
    ensures t[|r|..] == s[|s| - |t| + |r|..]
  {
  }

  /** Trimming a trimmed string changes nothing. */
  lemma TrimIdempotent(s: string)
    ensures Trim(Trim(s)) == Trim(s)
  {
    var r := Trim(s);
    if r != [] {
      assert TrimStart(r) == r;
      assert TrimEnd(r) == r;
    }
  }

  /** White space around a string that neither starts nor ends with white
      space is exactly what trimming removes. */
  lemma TrimPadded(pre: string, n: string, post: string)
    requires AllSpace(pre) && AllSpace(post)
    requires n == [] || (!IsSpace(n[0]) && !IsSpace(n[|n| - 1]))
    ensures Trim(pre + n + post) == n
  {
    var s := pre + n + post;
    var i, j := TrimSlice(s);
    SpaceOutside(s, i, j);
    PaddingLayout(pre, n, post);
    var r := Trim(s);
    assert forall k | i <= k < j :: s[k] == r[k - i];
    if n != [] {
      assert s[|pre|] == n[0] && s[|pre| + |n| - 1] == n[|n| - 1];
      assert i == |pre| && j == |pre| + |n|;
    }
  }

  /** What `TrimSlice` cuts off, index by index. */
  lemma SpaceOutside(s: string, i: nat, j: nat)
    requires i <= j <= |s| && AllSpace(s[..i]) && AllSpace(s[j..])
    ensures forall k | 0 <= k < i :: IsSpace(s[k])
    ensures forall k | j <= k < |s| :: IsSpace(s[k])
  {
    forall k | 0 <= k < i ensures IsSpace(s[k]) {
      assert s[..i][k] == s[k];
    }
    forall k | j <= k < |s| ensures IsSpace(s[k]) {
      assert s[j..][k - j] == s[k];
    }
  }

  /** Where the three parts of `pre + n + post` sit. */
  lemma PaddingLayout(pre: string, n: string, post: string)
    requires AllSpace(pre) && AllSpace(post)
    ensures forall k | 0 <= k < |pre| :: IsSpace((pre + n + post)[k])
    ensures forall k | 0 <= k < |n| :: (pre + n + post)[|pre| + k] == n[k]
    ensures forall k | |pre| + |n| <= k < |pre + n + post| :: IsSpace((pre + n + post)[k])
    ensures (pre + n + post)[|pre|..|pre| + |n|] == n
  {
    var s := pre + n + post;
    forall k | |pre| + |n| <= k < |s| ensures IsSpace(s[k]) {
      assert s[k] == post[k - |pre| - |n|];
    }
  }

  /** Number of occurrences of `c` in `s`. */
  function Count(s: string, c: char): nat {
    if s == [] then 0 else (if s[0] == c then 1 else 0) + Count(s[1..], c)
  }

  /** `s.split(sep)` for a one-character separator: the pieces between
      separators, so one more piece than there are separators, none of
      which contains the separator. The empty string gives one empty piece. */
  function Split(s: string, sep: char): (parts: seq<string>)
    ensures |parts| == Count(s, sep) + 1
    ensures forall p | p in parts :: sep !in p
    decreases |s|
  {
    if s == [] then [[]]
    else
      var rest := Split(s[1..], sep);
      if s[0] == sep then [[]] + rest
      else [[s[0]] + rest[0]] + rest[1..]
  }

  /** `parts.join(sep)`, the inverse of `Split`. */
  function Join(parts: seq<string>, sep: char): string
    decreases |parts|
  {
    if |parts| == 0 then []
    else if |parts| == 1 then parts[0]
    else parts[0] + [sep] + Join(parts[1..], sep)
  }

  /** Splitting loses nothing: joining the pieces back gives the input. */
  lemma {:induction false} JoinSplit(s: string, sep: char)
    ensures Join(Split(s, sep), sep) == s
    decreases |s|
  {
    if s != [] {
      var rest := Split(s[1..], sep);
      JoinSplit(s[1..], sep);
      if s[0] == sep {
        assert Split(s, sep) == [[]] + rest;
        assert s == [] + [sep] + s[1..];
      } else {
        var parts := [[s[0]] + rest[0]] + rest[1..];
        assert Split(s, sep) == parts;
        if |rest| == 1 {
          assert s == [s[0]] + s[1..];
        } else {
          assert parts[1..] == rest[1..];
          assert Join(rest, sep) == rest[0] + [sep] + Join(rest[1..], sep);
          assert s == [s[0]] + s[1..];
        }
      }
    }
  }

  /** Splitting finds exactly the pieces that were joined, provided none
      of them contains the separator. */
  lemma {:induction false} SplitJoin(parts: seq<string>, sep: char)
    requires |parts| >= 1
    requires forall p | p in parts :: sep !in p
    ensures Split(Join(parts, sep), sep) == parts
    decreases |parts|, |parts[0]|
  {
    var p := parts[0];
    assert p in parts;
    if |parts| == 1 {
      SplitPiece(p, sep);
    } else {
      var tail := Join(parts[1..], sep);
      assert Join(parts, sep) == p + [sep] + tail;
      if p == [] {
        assert Join(parts, sep) == [sep] + tail;
        assert (p + [sep] + tail)[1..] == tail;
        SplitJoin(parts[1..], sep);
        assert parts == [[]] + parts[1..];
      } else {
        var shorter := [p[1..]] + parts[1..];
        assert shorter[1..] == parts[1..];
        assert forall q | q in shorter :: sep !in q by {
          forall q | q in shorter ensures sep !in q {
            if q == p[1..] {
              assert forall k | 0 <= k < |q| :: q[k] == p[k + 1];
            } else {
              assert q in parts[1..];
            }
          }
        }
        SplitJoin(shorter, sep);
        assert Join(shorter, sep) == p[1..] + [sep] + tail;
        var s := p + [sep] + tail;
        assert s[0] == p[0] && p[0] != sep;
        assert s[1..] == Join(shorter, sep);
        assert [p[0]] + p[1..] == p;
        assert parts == [p] + parts[1..];
      }
    }
  }

  /** A piece without the separator splits into itself. */
  lemma {:induction false} SplitPiece(p: string, sep: char)
    requires sep !in p
    ensures Split(p, sep) == [p]
    decreases |p|
  {
    if p != [] {
      assert sep !in p[1..] by {
        assert forall k | 0 <= k < |p| - 1 :: p[1..][k] == p[k + 1];
      }
      SplitPiece(p[1..], sep);
      assert [p[0]] + p[1..] == p;
    }
  }
}

=== FILE: tokens.dfy ===
/** The pure part of `LoreboundTokenStore` (scripts/module.js:141-183):
    expiry with a one-minute margin, normalisation of a token response
    into a record with absolute times, and the connection status shown
    in the settings form. Times are milliseconds since the epoch and
    `now` stands for `Date.now()`. */
module Tokens {
  import opened Common

  const EXPIRY_MARGIN_MS := 60_000
  const DEFAULT_LIFETIME_MS := 3_600_000

  /** A token as the token endpoint returns it (`expires_in` in seconds)
      or as it is stored (`expires_at` and `received_at` in milliseconds).
      `extra` holds every other property of the object, which the spread
      in `_normalize` carries along untouched. */
  datatype RawToken = RawToken(
    accessToken: Option<string>,
    tokenType: Option<string>,
    refreshToken: Option<string>,
    expiresIn: Option<int>,
    expiresAt: Option<int>,
    receivedAt: Option<int>,
    extra: map<string, string>)

  /** `isExpired`: a missing token, or one whose `expires_at` is absent or
      zero, counts as expired; otherwise the token expires one minute
      before its `expires_at`. */
  function IsExpired(token: Option<RawToken>, now: nat): (expired: bool)
    ensures !expired <==> token.Some? && TruthyNum(token.value.expiresAt)
                          && now < token.value.expiresAt.value - EXPIRY_MARGIN_MS
  {
    if token.None? || !TruthyNum(token.value.expiresAt) then true
    else now >= token.value.expiresAt.value - EXPIRY_MARGIN_MS
  }

  /** Once expired, a token stays expired as the clock moves on. */
  lemma ExpiryIsPermanent(token: Option<RawToken>, now: nat, later: nat)
    requires now <= later
    requires IsExpired(token, now)
    ensures IsExpired(token, later)
  {
  }

  /** `_normalize`: `null` stays `null`; otherwise every property is kept,
      an `expires_at` or `received_at` already present is kept (even 0),
      and a missing one is filled from the clock, the expiry being
      `expires_in` seconds from now when that is truthy and one hour from
      now when it is not. */
  function Normalize(token: Option<RawToken>, now: nat): (r: Option<RawToken>)
    ensures r.Some? <==> token.Some?
    ensures token.Some? ==>
      && r.value.(expiresAt := token.value.expiresAt, receivedAt := token.value.receivedAt) == token.value
      && r.value.expiresAt.Some? && r.value.receivedAt.Some?
      && (token.value.expiresAt.Some? ==> r.value.expiresAt == token.value.expiresAt)
      && (token.value.receivedAt.Some? ==> r.value.receivedAt == token.value.receivedAt)
      && (token.value.receivedAt.None? ==> r.value.receivedAt == Some(now))
  {
    match token
    case None => None
    case Some(t) =>
      var computed := if TruthyNum(t.expiresIn) then now + t.expiresIn.value * 1000
                      else now + DEFAULT_LIFETIME_MS;
      Some(t.(expiresAt := Some(Nullish(t.expiresAt, computed)),
              receivedAt := Some(Nullish(t.receivedAt, now))))
  }

  /** Normalising twice is normalising once, even with a different clock
      the second time: both absolute times are already present and kept. */
  lemma NormalizeIdempotent(token: Option<RawToken>, now: nat, later: nat)
    ensures Normalize(Normalize(token, now), later) == Normalize(token, now)
  {
  }

  /** The expiry a fresh token response gets: `expires_in` seconds after
      the moment it is stored, or one hour when the provider gives no
      lifetime. So a response without a lifetime is never expired when it
      is stored, and one with a lifetime is expired at once exactly when
      that lifetime is at most the one-minute margin. */
  lemma FreshTokenExpiry(t: RawToken, now: nat)
    requires t.expiresAt.None?
    ensures var n := Normalize(Some(t), now);
      && (TruthyNum(t.expiresIn) ==> n.value.expiresAt == Some(now + t.expiresIn.value * 1000))
      && (!TruthyNum(t.expiresIn) ==> n.value.expiresAt == Some(now + DEFAULT_LIFETIME_MS))
      && (IsExpired(n, now) <==> TruthyNum(t.expiresIn) && t.expiresIn.value * 1000 <= EXPIRY_MARGIN_MS)
  {
  }

  /** The status shown in the settings form. The expiry label is formatted
      with the locale, which is not modelled: only whether there is a time
      to show is kept. */
  datatype Status = Disconnected | Connected(expiresAt: Option<int>)

  /** `describe`: connected exactly when there is a non-empty access token;
      the expiry time is shown when `expires_at` is truthy. */
  function Describe(token: Option<RawToken>): (s: Status)
    ensures s.Connected? <==> token.Some? && Truthy(token.value.accessToken)
    ensures s.Connected? ==>
      (s.expiresAt.Some? <==> TruthyNum(token.value.expiresAt))
      && (s.expiresAt.Some? ==> s.expiresAt == token.value.expiresAt)
  {
    if token.None? || !Truthy(token.value.accessToken) then Disconnected
    else if TruthyNum(token.value.expiresAt) then Connected(token.value.expiresAt)
    else Connected(None)
  }

  /** A stored token with an access token is always shown with its expiry
      time, unless that time is literally zero. */
  lemma StoredTokenShowsExpiry(t: RawToken, now: nat)
    requires Truthy(t.accessToken)
    ensures var n := Normalize(Some(t), now).value;
      Describe(Some(n)) == if n.expiresAt == Some(0) then Connected(None) else Connected(n.expiresAt)
  {
  }
}
